=== FILE: README.md ===
# IntelliJ freeze watchdog and test-suite stack, modelled in Dafny

This project models two sequential parts of the IntelliJ Platform and proves properties of them.

**The freeze watchdog of `PerformanceWatcher`.**
- Each event on the event dispatch thread (EDT) gets a `FreezeCheckerTask`.
- The checker starts in CHECKING. Its deferred trigger moves it to FREEZE by compare-and-set, creates a freeze folder and starts a dump task.
- `stop()` forces FINISHED and reports a finished freeze only when the state it replaced was FREEZE. The report gives the duration and the folder, renamed with the duration; the rename was meant to carry the freeze place as well, but as written it never does (see Findings).
- The watcher keeps a depth counter of nested events and at most one current checker. It splits the lateness of its periodic sampling tick into apdex events.
- It also builds thread-dump paths, derives intervals from registry values with Java `int` arithmetic, and deletes old dump folders by a retention rule.
- The freeze place is meant to be the innermost frame that the EDT stacks of all dumps share, compared from their outermost end and ignoring line numbers. The code's fold can keep frames a shorter stack lacks; the model proves the intended property of a corrected fold and exhibits the code's fold failing it (see Findings).
- `edtEventStarted` and `edtEventFinished` use the checker's stop as written (`FreezeChecker.StopAsWritten`); the corrected `FreezeChecker.Stop` is stated beside it and used only by the checker-level lemmas.

**`TestSuiteStack`.** This is the stack of test suites a test runner has opened and not yet closed.
- Closing a suite pops the top of the stack before checking that its name is the expected one.
- The path presentation renders the open suites as `[a]->[b]`.

## Structure

| File | Module | Contents |
|---|---|---|
| `java_lang.dfy` | `JavaLang` | Java `int` wrap-around, `TimeUnit` truncation toward zero, `Long.toString`, string prefix and suffix tests |
| `stack_frames.dfy` | `StackFrames` | stack frames, `compareStackTraceElements`, `getStacktraceCommonPart` as written and corrected |
| `freeze_place.dfy` | `FreezePlace` | the fold of `getFreezePlaceSuffix` over the recorded dumps |
| `dump_paths.dfy` | `DumpPaths` | the path-prefix rule and dump file name of `dumpThreads`, and the freeze folder name |
| `watcher_config.dfy` | `WatcherConfig` | the registry listener's interval, `getDumpInterval`, `getMaxDumpDuration` |
| `latency.dfy` | `Latency` | the latencies the `samplePerformance` loop produces |
| `retention.dfy` | `Retention` | `cleanOldFiles` over a tree of entries |
| `freeze_check.dfy` | `FreezeCheck` | the checker state machine, both as a pure run over signals and as the class `FreezeChecker` |
| `watchdog.dfy` | `Watchdog` | the class `PerformanceWatcher`: sampling, nested events, `dumpThreads` |
| `suite_stack.dfy` | `SuiteStack` | the class `TestSuiteStack` and its path presentation |

**Parameters.** Clocks, the file system and the message bus are parameters of the operations that use them:
- the nanosecond and millisecond clocks;
- `formatTime` and `buildName` results, as strings;
- whether a folder exists, can be created or can be renamed;
- whether a publisher is present.

**Two behaviours of the code worth stating:**
- The dump interval of a freeze is the sampling interval times the attempt count (`getDumpInterval`, PerformanceWatcher.java:356-358); the unresponsive interval only delays the trigger that declares the freeze (PerformanceWatcher.java:563).
- `edtEventStarted` stops the previous checker on every event (PerformanceWatcher.java:401-404), so with nested events the outer event's checker ends when the inner event starts, and a freeze is timed from the innermost event that is running.

**The suite-path arrow rule follows the code.**
- `getSuitePathPresentation` omits the arrow after a name that is the very String object of the top suite's name (`!=`, TestSuiteStack.java:85).
- The model gives each name an identity and implements exactly that rule.
- `PresentationIsPath` proves the positional form `[a]->[b]->[c]` whenever no lower suite shares the top name's object.
- `SameNameObjectDropsArrow` shows what happens otherwise.

## Model

| member | source | states |
|---|---|---|
| StackFrames.SameFrameIgnoresLine | platform/platform-impl/src/com/intellij/diagnostic/PerformanceWatcher.java:505-513 | two frames compare equal exactly when they are equal once line numbers are erased; changing a line number never changes the comparison |
| StackFrames.SameFrameIsEquivalence | platform/platform-impl/src/com/intellij/diagnostic/PerformanceWatcher.java:506-513 | the frame comparison is reflexive, symmetric and transitive |
| StackFrames.TrailingMatch | platform/platform-impl/src/com/intellij/diagnostic/PerformanceWatcher.java:495-498 | the offset where the loop stops: frames match from the end up to it, and it is a mismatch or the end of the shorter trace |
| StackFrames.CommonPart | platform/platform-impl/src/com/intellij/diagnostic/PerformanceWatcher.java:493-503 | the result is a suffix of commonPart; if it is shorter, it has exactly the length of the matching run, matches the new stack's trailing frames and is followed by a mismatch; if every compared frame matches, commonPart comes back unchanged; if some frame of commonPart within the new stack's length mismatches, the result is not commonPart |
| StackFrames.StacktraceCommonPart | platform/platform-impl/src/com/intellij/diagnostic/PerformanceWatcher.java:493-503 | the loop with its early return computes CommonPart |
| StackFrames.CommonSuffix | platform/platform-impl/src/com/intellij/diagnostic/PerformanceWatcher.java:493-503 | corrected intersection: a suffix of commonPart that matches the new stack's trailing frames and cannot be extended |
| StackFrames.CommonSuffixIsLongest | platform/platform-impl/src/com/intellij/diagnostic/PerformanceWatcher.java:493-503 | every suffix of commonPart that matches the new stack's trailing frames is at most as long as CommonSuffix |
| StackFrames.CommonPartKeepsFramesOfDeeperStack | platform/platform-impl/src/com/intellij/diagnostic/PerformanceWatcher.java:495-502 | for commonPart [x,a,b] and stack [a,b] the code returns [x,a,b], which does not match [a,b]; the corrected intersection is [a,b] |
| FreezePlace.CommonOfIsShared | platform/platform-impl/src/com/intellij/diagnostic/PerformanceWatcher.java:676-689 | the corrected fold yields a common part exactly when some dump had an EDT stack, and that part matches the trailing frames of every such stack |
| FreezePlace.CommonOfIsLongest | platform/platform-impl/src/com/intellij/diagnostic/PerformanceWatcher.java:676-689 | every frame run shared, at the same depth from the outermost call, by all dumps with an EDT stack is at most as long as the corrected fold's common part |
| FreezePlace.SharedFrameIff | platform/platform-impl/src/com/intellij/diagnostic/PerformanceWatcher.java:676-697 | the corrected fold yields a non-empty common part exactly when some dump has an EDT stack and every such stack has the same outermost frame, up to line number |
| FreezePlace.FoldAsWrittenNamesMissingFrame | platform/platform-impl/src/com/intellij/diagnostic/PerformanceWatcher.java:676-689 | for the dumps [x,a,b] then [a,b] the code's fold keeps [x,a,b], which the second dump does not share (it has no frame like x); the corrected fold gives the shared [a,b] |
| FreezePlace.ShortName | platform/platform-impl/src/com/intellij/diagnostic/PerformanceWatcher.java:694 | the short class name is a dot-free suffix of the qualified name, preceded by a dot when shorter |
| FreezePlace.FreezePlaceSuffix | platform/platform-impl/src/com/intellij/diagnostic/PerformanceWatcher.java:670-699 | the loop computes the label of the corrected fold's common part; it is non-empty exactly when some dump has an EDT stack and every such stack has the same outermost frame, up to line number; a non-empty label starts with '-' and ends with ".<method>" of the innermost common frame |
| FreezePlace.LabelFrameInEverySample | platform/platform-impl/src/com/intellij/diagnostic/PerformanceWatcher.java:691-697 | the frame the label names occurs, up to line number, in every dump with an EDT stack, at the same depth from the outermost call |
| JavaLang.LongToString | platform/platform-impl/src/com/intellij/diagnostic/PerformanceWatcher.java:646 | the text of a long: a minus sign exactly for a negative number, then digits, with no leading zero |
| JavaLang.LongRoundTrip | platform/platform-impl/src/com/intellij/diagnostic/PerformanceWatcher.java:646 | the decimal text of Long.toString reads back as the same number |
| FreezeCheck.RunNeverGoesBack | platform/platform-impl/src/com/intellij/diagnostic/PerformanceWatcher.java:573-601 | along any sequence of triggers and stops the state only moves forward through CHECKING, FREEZE, FINISHED, so no state is revisited |
| FreezeCheck.RunAdvances | platform/platform-impl/src/com/intellij/diagnostic/PerformanceWatcher.java:573-601 | a run never ends in an earlier state than it started in |
| FreezeCheck.FinishedIsTerminal | platform/platform-impl/src/com/intellij/diagnostic/PerformanceWatcher.java:573-601 | from FINISHED nothing changes the state and nothing is reported |
| FreezeCheck.AtMostOneReport | platform/platform-impl/src/com/intellij/diagnostic/PerformanceWatcher.java:573-595 | a checker reports at most once; a stop reports exactly when it replaces FREEZE and leaves FINISHED for good |
| FreezeCheck.StopBeforeTriggerNeverFreezes | platform/platform-impl/src/com/intellij/diagnostic/PerformanceWatcher.java:597-601 | a checker stopped while CHECKING never reaches FREEZE and never reports, whatever follows |
| FreezeCheck.ReportDirectory | platform/platform-impl/src/com/intellij/diagnostic/PerformanceWatcher.java:641-660 | no directory when the freeze folder does not exist; after a rename "<folder><place>-<seconds>sec" whose seconds are written as Long.toString writes them (no leading zero) and denote the duration divided by 1000, truncated; after a failed rename the folder itself |
| FreezeCheck.StopAsWrittenDropsFreezePlace | platform/platform-impl/src/com/intellij/diagnostic/PerformanceWatcher.java:576-587 | a dump task whose dumps share a frame labels the folder "-B.m", but with the task cleared first the label is empty and the report directory differs |
| FreezeCheck.FreezeChecker.constructor | platform/platform-impl/src/com/intellij/diagnostic/PerformanceWatcher.java:555-566 | a new checker is CHECKING with its start time, an armed trigger, no folder and no dump task |
| FreezeCheck.FreezeChecker.EdtFrozen | platform/platform-impl/src/com/intellij/diagnostic/PerformanceWatcher.java:597-613 | the folder name is set unconditionally; the state moves to FREEZE only from CHECKING; only then, and only with a publisher, a dump task starts with getDumpInterval and getMaxDumpDuration of the registry values and no dumps |
| FreezeCheck.FreezeChecker.RecordDump | platform/platform-impl/src/com/intellij/diagnostic/PerformanceWatcher.java:676 | a dumping checker appends the new dump's EDT stack to its task; nothing else changes |
| FreezeCheck.FreezeChecker.StopDumping | platform/platform-impl/src/com/intellij/diagnostic/PerformanceWatcher.java:662-668 | the dump task is dropped; state and folder are unchanged |
| FreezeCheck.FreezeChecker.Stop | platform/platform-impl/src/com/intellij/diagnostic/PerformanceWatcher.java:573-595 | corrected stop: the trigger is cancelled, the dump task dropped and the state becomes FINISHED; a report comes back exactly when the old state was FREEZE and a publisher is present, with the truncated duration in ms and the folder renamed with the freeze place of the old dump task |
| FreezeCheck.FreezeChecker.StopAsWritten | platform/platform-impl/src/com/intellij/diagnostic/PerformanceWatcher.java:573-595 | stop as FreezeCheckerTask.stop() orders it: as Stop, except that the report directory is named with the freeze place of no task, since the task is cleared first; no publisher, no report |
| FreezeCheck.StopTwice | platform/platform-impl/src/com/intellij/diagnostic/PerformanceWatcher.java:576 | with the stop the watcher uses, the first stop reports exactly when the checker was frozen; the second never reports |
| FreezeCheck.TriggerAfterStop | platform/platform-impl/src/com/intellij/diagnostic/PerformanceWatcher.java:601 | a trigger after the stop the watcher uses does not escalate and starts no dump task |
| DumpPaths.NormalizePrefix | platform/platform-impl/src/com/intellij/diagnostic/PerformanceWatcher.java:430-435 | the prefix always starts with "threadDumps-" and holds a '/'; a bare label is wrapped and ends with '/'; a path is kept and gains at most the "threadDumps-" prefix |
| DumpPaths.NormalizePrefixIdempotent | platform/platform-impl/src/com/intellij/diagnostic/PerformanceWatcher.java:430-435 | normalising a normalised prefix changes nothing |
| DumpPaths.NormalizePrefixOfPath | platform/platform-impl/src/com/intellij/diagnostic/PerformanceWatcher.java:433-435 | a path is left unchanged exactly when it already starts with "threadDumps-"; otherwise it is kept after the prepended prefix |
| DumpPaths.DumpFilePath | platform/platform-impl/src/com/intellij/diagnostic/PerformanceWatcher.java:430-439 | the dump file path starts with "threadDumps-" and ends with ".txt" |
| DumpPaths.MillisOnlyAddsSuffix | platform/platform-impl/src/com/intellij/diagnostic/PerformanceWatcher.java:437-439 | asking for milliseconds only inserts "-<millis>" before ".txt" |
| DumpPaths.FreezeFolderName | platform/platform-impl/src/com/intellij/diagnostic/PerformanceWatcher.java:598-600 | the freeze folder name starts with "threadDumps-freeze-" |
| DumpPaths.FreezeDumpsStayInFreezeFolder | platform/platform-impl/src/com/intellij/diagnostic/PerformanceWatcher.java:621-623 | the prefix "<freeze folder>/" passes through prefix normalisation unchanged |
| WatcherConfig.EffectiveSamplingInterval | platform/platform-impl/src/com/intellij/diagnostic/PerformanceWatcher.java:114-116 | the listener's interval is positive exactly when sampling interval, attempt count and unresponsive interval are all positive, and is then the sampling interval |
| WatcherConfig.DumpInterval | platform/platform-impl/src/com/intellij/diagnostic/PerformanceWatcher.java:356-358 | the product of sampling interval and attempt count as a Java int: congruent to the true product and equal to it when it fits |
| WatcherConfig.MaxDumpDurationMs | platform/platform-impl/src/com/intellij/diagnostic/PerformanceWatcher.java:380-382 | seconds times 1000 as a Java int: congruent to the true product and equal to it when it fits |
| WatcherConfig.MaxDumpDurationRange | platform/platform-impl/src/com/intellij/diagnostic/PerformanceWatcher.java:380-382 | durations up to 2147483 s convert exactly; 2147484 s wraps to a negative value |
| Latency.DelayEventsShape | platform/platform-impl/src/com/intellij/diagnostic/PerformanceWatcher.java:292-303 | an excess delay d >= 0 gives exactly d / s + 1 events with latencies d, d-s, ..., all >= 0; d < 0 gives none |
| Latency.LastDelayBelowInterval | platform/platform-impl/src/com/intellij/diagnostic/PerformanceWatcher.java:299-303 | the last event recorded is below one sampling interval |
| Retention.ThreadDumpFolders | platform/platform-impl/src/com/intellij/diagnostic/PerformanceWatcher.java:261 | the top-level listing holds exactly the log-directory entries whose names start with "threadDumps-", and no more entries than the log directory |
| Retention.ThreadDumpFoldersKeepOrder | platform/platform-impl/src/com/intellij/diagnostic/PerformanceWatcher.java:261-264 | the filtered entries sit at strictly increasing positions of the log directory, so filtering keeps the sorted order in which "the last 100" are counted |
| Retention.CleanOldFiles | platform/platform-impl/src/com/intellij/diagnostic/PerformanceWatcher.java:260-274 | the recursive loop leaves exactly the survivors of the retention rule among the listed entries |
| Retention.SurvivorsFromKept | platform/platform-impl/src/com/intellij/diagnostic/PerformanceWatcher.java:265-269 | every surviving entry is a listed entry among the last 100 and at most 10 days old, cleaned in turn (its own entries replaced by their survivors one level down) while above level 3 |
| Retention.SurvivorsFromComplete | platform/platform-impl/src/com/intellij/diagnostic/PerformanceWatcher.java:265-272 | every listed entry among the last 100 and at most 10 days old survives, cleaned in turn while above level 3 |
| Retention.SurvivorsBounded | platform/platform-impl/src/com/intellij/diagnostic/PerformanceWatcher.java:267 | at most 100 entries of a folder survive, each at most 10 days old |
| Retention.DeepSurvivorsUntouched | platform/platform-impl/src/com/intellij/diagnostic/PerformanceWatcher.java:270-272 | at level 3 and deeper the survivors are kept as they are, without descending |
| Watchdog.PerformanceWatcher.constructor | platform/platform-impl/src/com/intellij/diagnostic/PerformanceWatcher.java:103-152 | a headless application never samples and keeps that for good; otherwise sampling is scheduled with the sampling interval exactly when the listener's interval is positive; no events and no checker yet |
| Watchdog.PerformanceWatcher.RegistryValueChanged | platform/platform-impl/src/com/intellij/diagnostic/PerformanceWatcher.java:111-130 | called only on a watcher that is not headless, the one that registers the listener: a non-positive interval cancels sampling; a change of the sampling interval itself reschedules it with that interval; any other change leaves the schedule as it was |
| Watchdog.PerformanceWatcher.SamplePerformance | platform/platform-impl/src/com/intellij/diagnostic/PerformanceWatcher.java:292-303 | the last sampling time becomes now, and the recorded latencies grow by exactly the delay events of the truncated excess delay |
| Watchdog.PerformanceWatcher.EdtEventStarted | platform/platform-impl/src/com/intellij/diagnostic/PerformanceWatcher.java:397-407 | the counter grows by one; when sampling, any previous checker is stopped as written (FINISHED, trigger cancelled, no dump task, folder kept), reporting exactly if it was frozen and a publisher is present, with its duration up to stop()'s own clock reading and its folder renamed without a freeze place; a fresh CHECKING checker starts at the clock reading taken on entry |
| Watchdog.PerformanceWatcher.EdtEventFinished | platform/platform-impl/src/com/intellij/diagnostic/PerformanceWatcher.java:410-417 | the counter shrinks by one; when sampling, a missing checker fails as requireNonNull does; otherwise the checker is stopped as written, with the same report as in EdtEventStarted, and replaced by a fresh one started at a later clock reading only while events remain open, else by none |
| Watchdog.PerformanceWatcher.ClearFreezeStacktraces | platform/platform-impl/src/com/intellij/diagnostic/PerformanceWatcher.java:515-519 | the current checker, if any, drops its dump task and keeps its state, folder and cancelled trigger |
| Watchdog.PerformanceWatcher.DumpThreads | platform/platform-impl/src/com/intellij/diagnostic/PerformanceWatcher.java:419-444 | a file comes back exactly when sampling is on and its folder can be created, and it is the dump file path, starting with "threadDumps-" and ending with ".txt" |
| Watchdog.NestedEvents | platform/platform-impl/src/com/intellij/diagnostic/PerformanceWatcher.java:397-417 | start, start, finish, finish returns the counter to 0 with no current checker; it returns the three checkers armed on the way, all distinct, all FINISHED, with the start times of the first three events |
| SuiteStack.RenderDistinct | smRunner/src/com/intellij/execution/testframework/sm/runner/TestSuiteStack.java:79-89 | names whose objects all differ from the top's render as the arrow-joined path followed by one more arrow |
| SuiteStack.PresentationIsPath | smRunner/src/com/intellij/execution/testframework/sm/runner/TestSuiteStack.java:73-90 | when no lower suite shares the top name's String object, the presentation is "[a]->[b]->...->[top]" |
| SuiteStack.PresentationEndsWithTop | smRunner/src/com/intellij/execution/testframework/sm/runner/TestSuiteStack.java:80-89 | a non-empty presentation ends with the bracketed top name and no arrow after it |
| SuiteStack.SameNameObjectDropsArrow | smRunner/src/com/intellij/execution/testframework/sm/runner/TestSuiteStack.java:83-87 | a stack holding the same suite twice renders as "[a][a]" |
| SuiteStack.TestSuiteStack.constructor | smRunner/src/com/intellij/execution/testframework/sm/runner/TestSuiteStack.java:19 | a new stack is empty |
| SuiteStack.TestSuiteStack.PushSuite | smRunner/src/com/intellij/execution/testframework/sm/runner/TestSuiteStack.java:21-23 | the suite is added on top; the elements below are unchanged |
| SuiteStack.TestSuiteStack.GetCurrentSuite | smRunner/src/com/intellij/execution/testframework/sm/runner/TestSuiteStack.java:28-34 | null exactly for an empty stack, otherwise the top suite; the stack is not changed |
| SuiteStack.TestSuiteStack.PopSuite | smRunner/src/com/intellij/execution/testframework/sm/runner/TestSuiteStack.java:40-54 | an empty stack stays empty and reports an assertion; otherwise the top is always removed, the rest is unchanged, and the top comes back exactly when its name equals the expected one; a mismatch reports both names and the presentation of the rest |
| SuiteStack.TestSuiteStack.IsEmpty | smRunner/src/com/intellij/execution/testframework/sm/runner/TestSuiteStack.java:56-58 | true exactly when the stack has no suites |
| SuiteStack.TestSuiteStack.GetStackSize | smRunner/src/com/intellij/execution/testframework/sm/runner/TestSuiteStack.java:60-62 | the number of open suites |
| SuiteStack.TestSuiteStack.GetSuitePath | smRunner/src/com/intellij/execution/testframework/sm/runner/TestSuiteStack.java:64-71 | a new array as long as the stack, with the suite names from bottom to top |
| SuiteStack.TestSuiteStack.GetSuitePathPresentation | smRunner/src/com/intellij/execution/testframework/sm/runner/TestSuiteStack.java:73-90 | the loop builds "empty" for an empty stack, otherwise the pieces by the identity rule; it ends with the bracketed top name, and without shared name objects it is the arrow-joined path |
| SuiteStack.TestSuiteStack.Clear | smRunner/src/com/intellij/execution/testframework/sm/runner/TestSuiteStack.java:92-94 | the stack becomes empty |
| SuiteStack.PushThenPop | smRunner/src/com/intellij/execution/testframework/sm/runner/TestSuiteStack.java:21-54 | after a push the pushed suite is current and the size grew by one; popping it by its name returns it without error and restores the stack; all four results are returned |

## Left out

**Side effects and runtime machinery:**
- I/O is not modelled: writing dumps, duration files and pid files, deleting and renaming files, logging. Whether a folder exists, can be created or can be renamed is a parameter.
- `reportCrashesIfAny` and `processUnfinishedFreeze` are not modelled, because they are file-system side effects.
- Memory-usage reporting is not modelled, because it depends on the runtime.
- Concurrency is not modelled: the executor, futures, `invokeLater` and the blocking `submit(...).get()`.
  - Each update of the checker's `AtomicReference` is a single atomic step.
  - Racing orders such as a trigger between the compare-and-set and the creation of the dump task are not explored.
- The swing apdex, `JitWatcher` and the new-thread listener are not modelled. `ApdexData` is not part of this model; the general apdex is the sequence of latencies folded into it.

**Parts of the checker:**
- The dump task's own scheduling (`SamplingTask`) is not part of this model. A dump is an explicit step, `RecordDump`.
- The `dumpedThreads` callback is not modelled: it writes the dump, and it calls `stop()` when it finds the checker FINISHED.
- The `uiFreezeStarted` publication (PerformanceWatcher.java:611) is not modelled: EdtFrozen only decides, through `publisherPresent`, whether the dump task starts.
- The wait on the executor (`submit(...).get()`) and its logged exceptions are not modelled.

**Promises stated for the corrected members only:**
- FreezePlace.LabelFrameInEverySample: holds for the corrected fold CommonOf; the code's fold CommonOfAsWritten does not promise it (FoldAsWrittenNamesMissingFrame is the counterexample), and the watcher, which stops as written, never names a frame at all.
- FreezePlace.CommonOfIsShared, FreezePlace.CommonOfIsLongest, FreezePlace.SharedFrameIff and FreezePlace.FreezePlaceSuffix: likewise about the corrected fold only; the fold `getFreezePlaceSuffix` runs (PerformanceWatcher.java:685, FreezePlace.CommonOfAsWritten) need not match every dump.

**Failures of the Java code not modelled:**
- SuiteStack.TestSuiteStack.PopSuite: a null `suiteName` makes `popSuite` throw a NullPointerException at `suiteName.equals(...)` (TestSuiteStack.java:48) after the top has been popped; the model's names are never null.

**String helpers not part of this model:**
- FreezePlace.ShortName follows `StringUtil.getShortName` (the text after the last '.'), which is not part of this model.
- `FileUtil.sanitizeFileName` is taken to leave class and method names unchanged.
- `formatTime`, `buildName` and the clocks are parameters.

**Simplifications:**
- Retention.CleanOldFiles takes the order `Arrays.sort` gives as the listed order. An entry's age in whole days is given with the entry rather than read from the clock.
- Watchdog.PerformanceWatcher.EdtEventStarted does not model 32-bit wrap-around of the event counter, because it would need 2^31 nested events.
- `StackTraceElement` fields other than class, method, file and line are not modelled (module and class loader names).
- `getInstance` and `dispose` are not modelled, because they are service plumbing without logic.

## Findings

| source | as written | input that shows it | evidently intended | confidence | as-written member | corrected member |
|---|---|---|---|---|---|---|
| platform/platform-impl/src/com/intellij/diagnostic/PerformanceWatcher.java:576-587 | `stop()` calls `stopDumping()` (clearing the dump task) before `findReportDirectory`. So `getFreezePlaceSuffix` always finds no task, and the folder never carries the freeze place. | a freeze whose one dump has the EDT stack [a.B.m]: the folder is renamed "<folder>-<n>sec" instead of "<folder>-B.m-<n>sec" | read the freeze place from the dumps before the dump task is dropped | high; not executed | FreezeCheck.FreezeChecker.StopAsWritten, FreezeCheck.StopAsWrittenDropsFreezePlace | FreezeCheck.FreezeChecker.Stop, FreezePlace.FreezePlaceSuffix |
| platform/platform-impl/src/com/intellij/diagnostic/PerformanceWatcher.java:495-502 | `getStacktraceCommonPart` returns `commonPart` unchanged when the new stack is shorter and matches it as far as it goes. The "common" part then keeps inner frames the new stack does not have. | commonPart [x,a,b], stack [a,b] returns [x,a,b], and the freeze place would be named after x | keep only the trailing frames that both traces share ([a,b]) | medium; not executed | StackFrames.CommonPart, StackFrames.CommonPartKeepsFramesOfDeeperStack, FreezePlace.FoldAsWrittenNamesMissingFrame | StackFrames.CommonSuffix, FreezePlace.CommonOfIsShared, FreezePlace.CommonOfIsLongest, FreezePlace.FreezePlaceSuffix |

=== FILE: dump_paths.dfy ===
/** Where PerformanceWatcher.dumpThreads puts a thread dump, relative to the log
    directory: a folder named "threadDumps-..." and a file "threadDump-<time>[-<millis>].txt". */
module DumpPaths {
  import opened JavaLang

  const THREAD_DUMPS_PREFIX: string := "threadDumps-"
  const DUMP_PREFIX: string := "threadDump-"

  /** The folder prefix dumpThreads writes under. A bare label becomes a dated,
      build-tagged folder; a path keeps its form and gains the prefix if it lacks it.
      `ideStartTime` and `build` stand for formatTime(ourIdeStart) and buildName(). */
  function NormalizePrefix(pathPrefix: string, ideStartTime: string, build: string): (r: string)
    ensures StartsWith(r, THREAD_DUMPS_PREFIX)
    ensures '/' in r
    ensures '/' !in pathPrefix ==>
      |THREAD_DUMPS_PREFIX| + |pathPrefix| < |r| && r[|THREAD_DUMPS_PREFIX|..|THREAD_DUMPS_PREFIX| + |pathPrefix|] == pathPrefix && r[|r| - 1] == '/'
    ensures '/' in pathPrefix ==> EndsWith(r, pathPrefix) && |r| - |pathPrefix| in {0, |THREAD_DUMPS_PREFIX|}
  {
    if '/' !in pathPrefix then
      THREAD_DUMPS_PREFIX + pathPrefix + "-" + ideStartTime + "-" + build + "/"
    else if !StartsWith(pathPrefix, THREAD_DUMPS_PREFIX) then
      THREAD_DUMPS_PREFIX + pathPrefix
    else
      pathPrefix
  }

  /** Normalising an already normalised prefix changes nothing. */
  lemma NormalizePrefixIdempotent(pathPrefix: string, ideStartTime: string, build: string, t': string, b': string)
    ensures var once := NormalizePrefix(pathPrefix, ideStartTime, build);
            NormalizePrefix(once, t', b') == once
  {
  }

  /** A path under the thread-dump prefix is taken as it is; any other path is
      moved under it and keeps its own text. */
  lemma NormalizePrefixOfPath(pathPrefix: string, ideStartTime: string, build: string)
    requires '/' in pathPrefix
    ensures StartsWith(pathPrefix, THREAD_DUMPS_PREFIX) <==> NormalizePrefix(pathPrefix, ideStartTime, build) == pathPrefix
    ensures !StartsWith(pathPrefix, THREAD_DUMPS_PREFIX) ==>
      NormalizePrefix(pathPrefix, ideStartTime, build)[|THREAD_DUMPS_PREFIX|..] == pathPrefix
  {
  }

  /** The dump file of dumpThreads, relative to the log directory. `time` stands
      for formatTime(now) and `nowMillis` for the clock reading itself. */
  function DumpFilePath(pathPrefix: string, ideStartTime: string, build: string,
                        time: string, millis: bool, nowMillis: int): (r: string)
    ensures StartsWith(r, THREAD_DUMPS_PREFIX)
    ensures EndsWith(r, ".txt")
  {
    var prefix := NormalizePrefix(pathPrefix, ideStartTime, build);
    var suffix := if millis then "-" + LongToString(nowMillis) else "";
    var r := prefix + DUMP_PREFIX + time + suffix + ".txt";
    assert r[..|THREAD_DUMPS_PREFIX|] == prefix[..|THREAD_DUMPS_PREFIX|];
    r
  }

  /** Asking for milliseconds only inserts "-<millis>" before the extension. */
  lemma MillisOnlyAddsSuffix(pathPrefix: string, ideStartTime: string, build: string, time: string, nowMillis: int)
    ensures var plain := DumpFilePath(pathPrefix, ideStartTime, build, time, false, nowMillis);
            DumpFilePath(pathPrefix, ideStartTime, build, time, true, nowMillis)
              == plain[..|plain| - 4] + "-" + LongToString(nowMillis) + ".txt"
  {
    var prefix := NormalizePrefix(pathPrefix, ideStartTime, build);
    var plain := DumpFilePath(pathPrefix, ideStartTime, build, time, false, nowMillis);
    assert plain == (prefix + DUMP_PREFIX + time) + ".txt";
    assert plain[..|plain| - 4] == prefix + DUMP_PREFIX + time;
  }

  /** The folder of one freeze (FreezeCheckerTask.edtFrozen); `time` stands for
      the formatted clock reading at the moment the freeze was detected. */
  function FreezeFolderName(time: string, build: string): (r: string)
    ensures StartsWith(r, THREAD_DUMPS_PREFIX + "freeze-")
  {
    THREAD_DUMPS_PREFIX + "freeze-" + time + "-" + build
  }

  /** The dumps of a freeze go into the freeze folder itself: the path
      "<folder>/" passes through NormalizePrefix unchanged. */
  lemma FreezeDumpsStayInFreezeFolder(time: string, build: string, ideStartTime: string, b': string)
    ensures NormalizePrefix(FreezeFolderName(time, build) + "/", ideStartTime, b') == FreezeFolderName(time, build) + "/"
  {
    var p := FreezeFolderName(time, build) + "/";
    assert p[|p| - 1] == '/';
    assert p[..|THREAD_DUMPS_PREFIX|] == THREAD_DUMPS_PREFIX;
  }
}

=== FILE: freeze_check.dfy ===
/** PerformanceWatcher.FreezeCheckerTask: the per-event watchdog. It starts in
    CHECKING; its deferred trigger (edtFrozen) escalates it to FREEZE by
    compare-and-set, and stop() forces FINISHED with getAndSet, reporting the
    freeze only when the state it replaced was FREEZE. The two racing updates
    of the AtomicReference are single atomic steps here. */
module FreezeCheck {
  import opened JavaLang
  import opened StackFrames
  import opened FreezePlace
  import DumpPaths
  import opened WatcherConfig

  datatype CheckerState = Checking | Freeze | Finished

  /** States only move forward in this order. */
  function Rank(s: CheckerState): nat
  {
    match s
    case Checking => 0
    case Freeze => 1
    case Finished => 2
  }

  /** The state after the trigger's compareAndSet(CHECKING, FREEZE). */
  function AfterTrigger(s: CheckerState): CheckerState
  {
    if s == Checking then Freeze else s
  }

  /** The state after stop's getAndSet(FINISHED). */
  function AfterStop(s: CheckerState): CheckerState
  {
    Finished
  }

  /** stop() reports a finished freeze exactly when it replaced FREEZE. */
  predicate StopReports(s: CheckerState)
  {
    s == Freeze
  }

  /** What can happen to a checker: its trigger fires, or someone stops it. */
  datatype Signal = Trigger | StopCall

  function Step(s: CheckerState, signal: Signal): CheckerState
  {
    match signal
    case Trigger => AfterTrigger(s)
    case StopCall => AfterStop(s)
  }

  /** The state after a sequence of signals, applied in order. */
  function Run(s: CheckerState, signals: seq<Signal>): CheckerState
    decreases |signals|
  {
    if |signals| == 0 then s else Run(Step(s, signals[0]), signals[1..])
  }

  /** How many freeze-finished reports a sequence of signals produces. */
  function Reports(s: CheckerState, signals: seq<Signal>): nat
    decreases |signals|
  {
    if |signals| == 0 then 0
    else (if signals[0] == StopCall && StopReports(s) then 1 else 0) + Reports(Step(s, signals[0]), signals[1..])
  }

  /** Each signal moves the state forward or leaves it; no state is ever revisited. */
  lemma {:induction false} RunNeverGoesBack(s: CheckerState, signals: seq<Signal>, i: nat, j: nat)
    requires i <= j <= |signals|
    ensures Rank(Run(s, signals[..i])) <= Rank(Run(s, signals[..j]))
    decreases i
  {
    if i > 0 {
      var rest := signals[1..];
      assert signals[..i][1..] == rest[..i - 1];
      assert signals[..j][1..] == rest[..j - 1];
      RunNeverGoesBack(Step(s, signals[0]), rest, i - 1, j - 1);
    } else {
      RunAdvances(s, signals[..j]);
    }
  }

  lemma {:induction false} RunAdvances(s: CheckerState, signals: seq<Signal>)
    ensures Rank(s) <= Rank(Run(s, signals))
    decreases |signals|
  {
    if |signals| > 0 {
      RunAdvances(Step(s, signals[0]), signals[1..]);
    }
  }

  /** FINISHED is terminal: nothing moves a stopped checker, and it never reports again. */
  lemma {:induction false} FinishedIsTerminal(signals: seq<Signal>)
    ensures Run(Finished, signals) == Finished
    ensures Reports(Finished, signals) == 0
  {
    if |signals| > 0 {
      FinishedIsTerminal(signals[1..]);
    }
  }

  /** A checker reports at most once; from CHECKING or FREEZE it reports exactly
      when it sees a stop while frozen. Stopping before the trigger fires means
      no freeze is ever entered or reported. */
  lemma {:induction false} AtMostOneReport(s: CheckerState, signals: seq<Signal>)
    ensures Reports(s, signals) <= 1
    ensures |signals| > 0 && signals[0] == StopCall ==>
      Reports(s, signals) == (if s == Freeze then 1 else 0) && Run(s, signals) == Finished
    decreases |signals|
  {
    if |signals| > 0 {
      var next := Step(s, signals[0]);
      if signals[0] == StopCall {
        FinishedIsTerminal(signals[1..]);
      } else {
        AtMostOneReport(next, signals[1..]);
      }
    }
  }

  /** A checker stopped while still CHECKING never reaches FREEZE, whatever follows. */
  lemma StopBeforeTriggerNeverFreezes(signals: seq<Signal>, i: nat)
    requires |signals| > 0 && signals[0] == StopCall && i <= |signals|
    ensures Run(Checking, signals[..i]) != Freeze
    ensures Reports(Checking, signals) == 0
  {
    AtMostOneReport(Checking, signals);
    if i > 0 {
      assert signals[..i][1..] == signals[1..][..i - 1];
      FinishedIsTerminal(signals[1..][..i - 1]);
    }
  }

  /** The dump task of a frozen checker (PerformanceWatcher.SamplingTask, whose
      own scheduling is not part of this model): its two timing parameters and
      the EDT stacks of the dumps it has taken so far. */
  datatype SamplingTask = SamplingTask(dumpIntervalMs: int, maxDurationMs: int, dumps: seq<EdtSample>)

  /** What uiFreezeFinished is published with. */
  datatype FreezeReport = FreezeReport(durationMs: int, reportDir: Option<string>)

  /** getFreezePlaceSuffix for the dump task the checker holds at that moment. */
  function FreezePlaceSuffixOf(task: Option<SamplingTask>): string
  {
    if task.None? then "" else FreezePlaceLabel(CommonOf(task.value.dumps))
  }

  /** findReportDirectory: no folder when none was created; otherwise the folder
      renamed to "<folder><place>-<seconds>sec", or the old name if the rename failed. */
  function ReportDirectory(folder: string, placeSuffix: string, durationMs: int,
                           folderExists: bool, renameSucceeds: bool): (r: Option<string>)
    ensures r.Some? <==> folderExists
    ensures r.Some? && renameSucceeds ==>
      var p := folder + placeSuffix + "-";
      |p| + 3 < |r.value| && r.value[..|p|] == p && r.value[|r.value| - 3..] == "sec"
      && IsCanonicalLong(r.value[|p|..|r.value| - 3])
      && LongValue(r.value[|p|..|r.value| - 3]) == TruncDiv(durationMs, 1000)
    ensures r.Some? && !renameSucceeds ==> r.value == folder
  {
    if !folderExists then None
    else if renameSucceeds then
      var p := folder + placeSuffix + "-";
      var seconds := LongToString(TruncDiv(durationMs, 1000));
      var r := p + seconds + "sec";
      assert r[..|p|] == p && r[|r| - 3..] == "sec" && r[|p|..|r| - 3] == seconds;
      LongRoundTrip(TruncDiv(durationMs, 1000));
      Some(r)
    else Some(folder)
  }

  /** In the Java code, FreezeCheckerTask.stop() clears the dump task (stopDumping) before the report
      directory is named, so getFreezePlaceSuffix always sees no task: whatever
      the dumps were, the folder name carries no freeze place. Here a task whose
      dumps share a frame loses its label that way. */
  lemma StopAsWrittenDropsFreezePlace(folder: string, durationMs: int)
    ensures var f := Frame("a.B", "m", Some("B.java"), 3);
            var task := SamplingTask(500, 5000, [Some([f])]);
            FreezePlaceSuffixOf(Some(task)) == "-B.m" &&
            FreezePlaceSuffixOf(None) == "" &&
            ReportDirectory(folder, FreezePlaceSuffixOf(None), durationMs, true, true)
              != ReportDirectory(folder, FreezePlaceSuffixOf(Some(task)), durationMs, true, true)
  {
    var f := Frame("a.B", "m", Some("B.java"), 3);
    var task := SamplingTask(500, 5000, [Some([f])]);
    assert [Some([f])][..0] == [];
    assert CommonOf([Some([f])]) == Some([f]);
    assert ShortName("a.B") == "B" by {
      assert "a.B"[..2] == "a.";
    }
    var secs := LongToString(TruncDiv(durationMs, 1000));
    var withPlace := folder + "-B.m" + "-" + secs + "sec";
    var without := folder + "" + "-" + secs + "sec";
    assert |withPlace| == |without| + 4;
  }

  class FreezeChecker {
    /** myState */
    var state: CheckerState
    /** myTaskStart, in nanoseconds */
    const taskStart: int
    /** myFuture.cancel(false) has been called: a trigger not yet running will not run. */
    var triggerCancelled: bool
    /** myFreezeFolder, null until the trigger fires */
    var freezeFolder: Option<string>
    /** myDumpTask, null unless dumping */
    var dumpTask: Option<SamplingTask>

    /** A frozen checker has its folder; only a frozen checker dumps. */
    ghost predicate Valid()
      reads this
    {
      (state == Freeze ==> freezeFolder.Some?) && (state != Freeze ==> dumpTask.None?)
    }

    /** A new checker: CHECKING, its trigger armed (the delay is not modelled). */
    constructor (start: int)
      ensures Valid()
      ensures state == Checking && taskStart == start && !triggerCancelled
      ensures freezeFolder.None? && dumpTask.None?
    {
      state := Checking;
      taskStart := start;
      triggerCancelled := false;
      freezeFolder := None;
      dumpTask := None;
    }

    /** edtFrozen, fired by the deferred trigger. `time` and `build` stand for the
        formatted clock and the build name; `publisherPresent` says whether the
        application still has a message bus; `config` holds the registry values the
        dump task is timed by. Returns whether the freeze started. */
    method EdtFrozen(time: string, build: string, publisherPresent: bool, config: Config) returns (started: bool)
      requires Valid()
      modifies this
      ensures Valid()
      ensures state == AfterTrigger(old(state))
      ensures started <==> old(state) == Checking
      ensures freezeFolder == Some(DumpPaths.FreezeFolderName(time, build))
      ensures dumpTask == if started && publisherPresent
                          then Some(SamplingTask(DumpInterval(config), MaxDumpDurationMs(config), []))
                          else old(dumpTask)
      ensures triggerCancelled == old(triggerCancelled)
    {
      freezeFolder := Some(DumpPaths.FreezeFolderName(time, build));
      started := state == Checking;
      if started {
        state := Freeze;
        if publisherPresent {
          dumpTask := Some(SamplingTask(DumpInterval(config), MaxDumpDurationMs(config), []));
        }
      }
    }

    /** The dump task has taken one more dump (SamplingTask records it, then calls
        dumpedThreads, whose file writing is not modelled). A checker that is not
        dumping records nothing. */
    method RecordDump(edt: EdtSample)
      requires Valid()
      modifies this
      ensures Valid()
      ensures state == old(state) && freezeFolder == old(freezeFolder) && triggerCancelled == old(triggerCancelled)
      ensures dumpTask == if old(dumpTask).None? then None
                          else Some(old(dumpTask).value.(dumps := old(dumpTask).value.dumps + [edt]))
    {
      if dumpTask.Some? {
        dumpTask := Some(dumpTask.value.(dumps := dumpTask.value.dumps + [edt]));
      }
    }

    /** stopDumping: the dump task is stopped and dropped. */
    method StopDumping()
      requires Valid()
      modifies this
      ensures Valid()
      ensures dumpTask.None?
      ensures state == old(state) && freezeFolder == old(freezeFolder) && triggerCancelled == old(triggerCancelled)
    {
      dumpTask := None;
    }

    /** stop, with the freeze place read before the dump task is dropped (see
        StopAsWrittenDropsFreezePlace for the order FreezeCheckerTask.stop() uses). `now` is the
        nanosecond clock; `publisherPresent` says whether getPublisher() found a
        message bus (without one nothing is published and no folder renamed); the
        other two flags say whether the freeze folder exists and whether renaming
        it works. */
    method Stop(now: int, publisherPresent: bool, folderExists: bool, renameSucceeds: bool)
      returns (report: Option<FreezeReport>)
      requires Valid()
      modifies this
      ensures Valid()
      ensures state == AfterStop(old(state)) && triggerCancelled
      ensures dumpTask.None? && freezeFolder == old(freezeFolder)
      ensures report.Some? <==> StopReports(old(state)) && publisherPresent
      ensures report.Some? ==>
        var ms := TruncDiv(now - taskStart, 1_000_000);
        report.value == FreezeReport(ms, ReportDirectory(old(freezeFolder).value, FreezePlaceSuffixOf(old(dumpTask)),
                                                         ms, folderExists, renameSucceeds))
    {
      triggerCancelled := true;
      var previous := state;
      state := Finished;
      report := None;
      if previous == Freeze {
        var placeSuffix := "";
        if dumpTask.Some? {
          placeSuffix := FreezePlaceSuffix(dumpTask.value.dumps);
        }
        dumpTask := None;
        if publisherPresent {
          var durationMs := TruncDiv(now - taskStart, 1_000_000);
          var dir := ReportDirectory(freezeFolder.value, placeSuffix, durationMs, folderExists, renameSucceeds);
          report := Some(FreezeReport(durationMs, dir));
        }
      }
    }

    /** stop in the order FreezeCheckerTask.stop() uses: stopDumping() runs before the report
        directory is named, so the freeze place is always computed from no task. */
    method StopAsWritten(now: int, publisherPresent: bool, folderExists: bool, renameSucceeds: bool)
      returns (report: Option<FreezeReport>)
      requires Valid()
      modifies this
      ensures Valid()
      ensures state == AfterStop(old(state)) && triggerCancelled
      ensures dumpTask.None? && freezeFolder == old(freezeFolder)
      ensures report.Some? <==> StopReports(old(state)) && publisherPresent
      ensures report.Some? ==>
        var ms := TruncDiv(now - taskStart, 1_000_000);
        report.value == FreezeReport(ms, ReportDirectory(old(freezeFolder).value, FreezePlaceSuffixOf(None),
                                                         ms, folderExists, renameSucceeds))
    {
      triggerCancelled := true;
      var previous := state;
      state := Finished;
      report := None;
      if previous == Freeze {
        dumpTask := None;
        if publisherPresent {
          var placeSuffix := FreezePlaceSuffixOf(dumpTask);
          var durationMs := TruncDiv(now - taskStart, 1_000_000);
          var dir := ReportDirectory(freezeFolder.value, placeSuffix, durationMs, folderExists, renameSucceeds);
          report := Some(FreezeReport(durationMs, dir));
        }
      }
    }
  }

  /** Stopping twice, in the order FreezeCheckerTask.stop() uses, reports at
      most once: the second stop finds FINISHED. */
  method StopTwice(c: FreezeChecker, now: int, later: int) returns (first: Option<FreezeReport>, second: Option<FreezeReport>)
    requires c.Valid()
    modifies c
    ensures first.Some? <==> old(c.state) == Freeze
    ensures second.None? && c.state == Finished
  {
    first := c.StopAsWritten(now, true, true, true);
    second := c.StopAsWritten(later, true, true, true);
  }

  /** A trigger that fires after stop (as FreezeCheckerTask.stop() runs it)
      leaves the checker FINISHED and starts nothing. */
  method TriggerAfterStop(c: FreezeChecker, now: int, time: string, build: string, config: Config) returns (started: bool)
    requires c.Valid()
    modifies c
    ensures !started && c.state == Finished && c.dumpTask.None?
  {
    var _ := c.StopAsWritten(now, true, true, true);
    started := c.EdtFrozen(time, build, true, config);
  }
}

=== FILE: freeze_place.dfy ===
/** The freeze-place label of a finished freeze (FreezeCheckerTask.getFreezePlaceSuffix):
    the EDT stacks of all thread dumps taken during the freeze are intersected from
    their outermost end, and the innermost shared frame names the report folder. */
module FreezePlace {
  import opened JavaLang
  import opened StackFrames

  /** What one thread dump contributes: the stack of the event dispatch thread, or
      None when the dump holds no such thread or no stack for it. */
  type EdtSample = Option<seq<Frame>>

  /** One step of the fold: the first stack seen starts the common part, every
      later stack is intersected with it, and dumps without an EDT stack are skipped. */
  function Combine(acc: Option<seq<Frame>>, sample: EdtSample): Option<seq<Frame>>
  {
    match sample
    case None => acc
    case Some(stack) => if acc.None? then Some(stack) else Some(CommonSuffix(acc.value, stack))
  }

  /** The common part after folding the samples in the order they were taken. */
  function CommonOf(samples: seq<EdtSample>): Option<seq<Frame>>
  {
    if |samples| == 0 then None
    else Combine(CommonOf(samples[..|samples| - 1]), samples[|samples| - 1])
  }

  /** `t` matches the outermost frames of every dump that had an EDT stack. */
  predicate SharedBy(t: seq<Frame>, samples: seq<EdtSample>)
  {
    forall j :: 0 <= j < |samples| && samples[j].Some? ==> MatchesTail(t, samples[j].value)
  }

  /** The fold of getFreezePlaceSuffix as written, intersecting with getStacktraceCommonPart. */
  function CombineAsWritten(acc: Option<seq<Frame>>, sample: EdtSample): Option<seq<Frame>>
  {
    match sample
    case None => acc
    case Some(stack) => if acc.None? then Some(stack) else Some(CommonPart(acc.value, stack))
  }

  function CommonOfAsWritten(samples: seq<EdtSample>): Option<seq<Frame>>
  {
    if |samples| == 0 then None
    else CombineAsWritten(CommonOfAsWritten(samples[..|samples| - 1]), samples[|samples| - 1])
  }

  /** The fold yields a common part exactly when some dump had an EDT stack, and
      that part matches the outermost frames of every such stack. */
  lemma {:induction false} CommonOfIsShared(samples: seq<EdtSample>)
    ensures CommonOf(samples).Some? <==> exists j :: 0 <= j < |samples| && samples[j].Some?
    ensures CommonOf(samples).Some? ==>
      forall j :: 0 <= j < |samples| && samples[j].Some? ==> MatchesTail(CommonOf(samples).value, samples[j].value)
  {
    if |samples| > 0 {
      var n := |samples| - 1;
      var init := samples[..n];
      CommonOfIsShared(init);
      assert forall j :: 0 <= j < n ==> init[j] == samples[j];
      var acc := CommonOf(init);
      match samples[n]
      case None =>
      case Some(stack) =>
        if acc.Some? {
          var r := CommonSuffix(acc.value, stack);
          forall j | 0 <= j < n && samples[j].Some? ensures MatchesTail(r, samples[j].value) {
            assert MatchesTail(acc.value, init[j].value);
            forall i | 0 <= i < |r| ensures SameFrame(FromEnd(r, i), FromEnd(samples[j].value, i)) {
              SuffixFromEnd(r, acc.value, i);
            }
          }
        }
    }
  }

  /** The fold keeps the longest run of outermost frames that all dumps share. */
  lemma {:induction false} CommonOfIsLongest(samples: seq<EdtSample>, t: seq<Frame>)
    requires CommonOf(samples).Some?
    requires SharedBy(t, samples)
    ensures |t| <= |CommonOf(samples).value|
    decreases |samples|
  {
    var n := |samples| - 1;
    var init := samples[..n];
    assert forall j :: 0 <= j < n ==> init[j] == samples[j];
    assert SharedBy(t, init);
    var acc := CommonOf(init);
    match samples[n]
    case None =>
      CommonOfIsLongest(init, t);
    case Some(stack) =>
      assert MatchesTail(t, stack);
      if acc.Some? {
        CommonOfIsLongest(init, t);
        CommonOfIsShared(init);
        var a := acc.value;
        var j :| 0 <= j < n && init[j].Some?;
        assert MatchesTail(a, init[j].value) && MatchesTail(t, samples[j].value);
        var t' := a[|a| - |t|..];
        forall i | 0 <= i < |t'| ensures SameFrame(FromEnd(t', i), FromEnd(stack, i)) {
          SuffixFromEnd(t', a, i);
        }
        CommonSuffixIsLongest(a, stack, t');
      }
  }

  /** The fold names a frame exactly when some dump had an EDT stack and all
      such stacks start from the same outermost frame. */
  lemma SharedFrameIff(samples: seq<EdtSample>)
    ensures (CommonOf(samples).Some? && |CommonOf(samples).value| > 0) <==>
            (exists j :: 0 <= j < |samples| && samples[j].Some?) && (exists f :: SharedBy([f], samples))
  {
    CommonOfIsShared(samples);
    if CommonOf(samples).Some? && |CommonOf(samples).value| > 0 {
      var c := CommonOf(samples).value;
      var f := FromEnd(c, 0);
      assert SharedBy([f], samples);
    }
    if (exists j :: 0 <= j < |samples| && samples[j].Some?) && (exists f :: SharedBy([f], samples)) {
      var f :| SharedBy([f], samples);
      CommonOfIsLongest(samples, [f]);
    }
  }

  /** The fold as written keeps, and so labels the folder with, an inner frame
      x that the last dump lacks; the intended fold keeps [a, b] and names a. */
  lemma FoldAsWrittenNamesMissingFrame()
    ensures var x := Frame("p.Inner", "work", Some("Inner.java"), 7);
            var a := Frame("p.Outer", "call", Some("Outer.java"), 12);
            var b := Frame("java.lang.Thread", "run", Some("Thread.java"), 829);
            var samples := [Some([x, a, b]), Some([a, b])];
            CommonOfAsWritten(samples) == Some([x, a, b]) && !SharedBy([x, a, b], samples)
            && (forall k :: 0 <= k < |samples[1].value| ==> !SameFrame(x, samples[1].value[k]))
            && CommonOf(samples) == Some([a, b]) && SharedBy([a, b], samples)
  {
    var x := Frame("p.Inner", "work", Some("Inner.java"), 7);
    var a := Frame("p.Outer", "call", Some("Outer.java"), 12);
    var b := Frame("java.lang.Thread", "run", Some("Thread.java"), 829);
    var samples := [Some([x, a, b]), Some([a, b])];
    CommonPartKeepsFramesOfDeeperStack();
    var first := samples[..1];
    assert first == [Some([x, a, b])] && first[..0] == [];
    assert CommonOfAsWritten(first) == Some([x, a, b]);
    assert CommonOf(first) == Some([x, a, b]);
    assert samples[..|samples| - 1] == first;
    assert CommonOfAsWritten(samples) == CombineAsWritten(Some([x, a, b]), Some([a, b]));
    assert CommonOf(samples) == Combine(Some([x, a, b]), Some([a, b]));
    assert !MatchesTail([x, a, b], samples[1].value);
  }

  /** StringUtil.getShortName: the part of a qualified class name after its last dot. */
  function ShortName(qualified: string): (r: string)
    ensures EndsWith(qualified, r)
    ensures '.' !in r
    ensures |r| < |qualified| ==> qualified[|qualified| - |r| - 1] == '.'
  {
    if |qualified| == 0 || qualified[|qualified| - 1] == '.' then ""
    else
      var r := ShortName(qualified[..|qualified| - 1]) + [qualified[|qualified| - 1]];
      assert qualified[..|qualified| - 1][|qualified| - |r|..] == qualified[|qualified| - |r|..|qualified| - 1];
      r
  }

  /** The label text: "-<short class name>.<method name>" of the innermost common
      frame, or empty when there is no common frame. */
  function FreezePlaceLabel(common: Option<seq<Frame>>): string
  {
    if common.None? || |common.value| == 0 then ""
    else "-" + ShortName(common.value[0].className) + "." + common.value[0].methodName
  }

  /** The loop of getFreezePlaceSuffix over the recorded dumps. */
  method FreezePlaceSuffix(samples: seq<EdtSample>) returns (placeSuffix: string)
    ensures placeSuffix == FreezePlaceLabel(CommonOf(samples))
    ensures placeSuffix != "" <==>
      (exists j :: 0 <= j < |samples| && samples[j].Some?) && (exists f :: SharedBy([f], samples))
    ensures placeSuffix != "" ==> placeSuffix[0] == '-' && EndsWith(placeSuffix, "." + CommonOf(samples).value[0].methodName)
  {
    var common: Option<seq<Frame>> := None;
    var i := 0;
    while i < |samples|
      invariant 0 <= i <= |samples|
      invariant common == CommonOf(samples[..i])
    {
      assert samples[..i + 1][..i] == samples[..i];
      match samples[i] {
        case None =>
        case Some(stack) =>
          if common.None? {
            common := Some(stack);
          } else {
            common := Some(CommonSuffix(common.value, stack));
          }
      }
      i := i + 1;
    }
    assert samples[..|samples|] == samples;
    SharedFrameIff(samples);
    if common.Some? && |common.value| > 0 {
      var element := common.value[0];
      placeSuffix := "-" + ShortName(element.className) + "." + element.methodName;
    } else {
      placeSuffix := "";
    }
  }

  /** The frame the label names occurs, up to line numbers, in every dump that
      had an EDT stack, at the same depth from the outermost call. */
  lemma LabelFrameInEverySample(samples: seq<EdtSample>, j: nat)
    requires j < |samples| && samples[j].Some?
    requires CommonOf(samples).Some? && |CommonOf(samples).value| > 0
    ensures var c := CommonOf(samples).value;
            |c| <= |samples[j].value| && SameFrame(c[0], FromEnd(samples[j].value, |c| - 1))
  {
    CommonOfIsShared(samples);
    var c := CommonOf(samples).value;
    assert MatchesTail(c, samples[j].value);
    assert FromEnd(c, |c| - 1) == c[0];
  }
}

=== FILE: java_lang.dfy ===
/** Java-level primitives the watcher relies on: nullable values, 32-bit `int`
    arithmetic, truncating `long` division, decimal rendering of numbers and
    prefix/suffix tests on strings. */
module JavaLang {

  /** A Java reference that may be null. */
  datatype Option<+T> = None | Some(value: T)

  const INT32_MODULUS: int := 0x1_0000_0000
  const INT32_MIN: int := -0x8000_0000
  const INT32_MAX: int := 0x7fff_ffff

  predicate IsInt32(x: int) {
    INT32_MIN <= x <= INT32_MAX
  }

  /** The value a Java `int` holds after the mathematical result `x` is stored
      in it: two's complement wrap-around. */
  function ToInt32(x: int): (r: int)
    ensures IsInt32(r)
    ensures (x - r) % INT32_MODULUS == 0
    ensures IsInt32(x) ==> r == x
  {
    var m := (x - INT32_MIN) % INT32_MODULUS;
    assert x - INT32_MIN == INT32_MODULUS * ((x - INT32_MIN) / INT32_MODULUS) + m;
    m + INT32_MIN
  }

  /** Java's `/` on `long` (and `TimeUnit` conversions to a coarser unit):
      the quotient is truncated toward zero. */
  function TruncDiv(a: int, b: int): (q: int)
    requires b > 0
    ensures a >= 0 ==> 0 <= q && q * b <= a < q * b + b
    ensures a < 0 ==> q <= 0 && q * b - b < a <= q * b
  {
    var n := if a >= 0 then a else -a;
    DivBounds(n, b);
    NegMul(n / b, b);
    if a >= 0 then n / b else -(n / b)
  }

  lemma DivBounds(n: int, b: int)
    requires n >= 0 && b > 0
    ensures 0 <= n / b && (n / b) * b <= n < (n / b) * b + b
  {
  }

  lemma NegMul(d: int, b: int)
    ensures (-d) * b == -(d * b)
  {
  }

  function DigitChar(d: int): (c: char)
    requires 0 <= d < 10
    ensures '0' <= c <= '9'
  {
    (('0' as int) + d) as char
  }

  /** Decimal digits of a natural number, most significant first. */
  function NatToString(n: nat): (s: string)
    ensures |s| > 0
    ensures forall i :: 0 <= i < |s| ==> '0' <= s[i] <= '9'
    ensures |s| == 1 <==> n < 10
    ensures s[0] == '0' ==> n == 0
  {
    if n < 10 then [DigitChar(n)] else NatToString(n / 10) + [DigitChar(n % 10)]
  }

  predicate IsDigit(c: char) {
    '0' <= c <= '9'
  }

  /** The text of a `long`: digits, optionally after a minus sign. */
  predicate IsLongText(s: string) {
    |s| > 0 && s != "-" && (s[0] == '-' || IsDigit(s[0])) && forall i :: 0 < i < |s| ==> IsDigit(s[i])
  }

  /** The form `Long.toString` writes: no leading zero, neither after a minus
      sign nor before another digit. */
  predicate IsCanonicalLong(s: string) {
    IsLongText(s) && if s[0] == '-' then s[1] != '0' else |s| == 1 || s[0] != '0'
  }

  /** `Long.toString`: an optional minus sign followed by the decimal digits. */
  function LongToString(n: int): (s: string)
    ensures IsCanonicalLong(s)
    ensures s[0] == '-' <==> n < 0
  {
    if n < 0 then "-" + NatToString(-n) else NatToString(n)
  }

  /** The number a string of decimal digits denotes. */
  function DecimalValue(s: string): int
  {
    if |s| == 0 then 0 else DecimalValue(s[..|s| - 1]) * 10 + (s[|s| - 1] as int - '0' as int)
  }

  /** Reading back the digits of a number gives the number. */
  lemma {:induction false} DecimalRoundTrip(n: nat)
    ensures DecimalValue(NatToString(n)) == n
  {
    if n >= 10 {
      var s := NatToString(n);
      assert s[..|s| - 1] == NatToString(n / 10);
      DecimalRoundTrip(n / 10);
    }
  }

  /** The number the text of a `long` denotes. */
  function LongValue(s: string): int
  {
    if |s| > 0 && s[0] == '-' then -DecimalValue(s[1..]) else DecimalValue(s)
  }

  /** Reading back `Long.toString` gives the number. */
  lemma LongRoundTrip(n: int)
    ensures LongValue(LongToString(n)) == n
  {
    var s := LongToString(n);
    if n < 0 {
      assert s == "-" + NatToString(-n);
      assert s[1..] == NatToString(-n);
      DecimalRoundTrip(-n);
    } else {
      assert s == NatToString(n) && s[0] != '-';
      DecimalRoundTrip(n);
    }
  }

  predicate StartsWith(s: string, prefix: string) {
    |prefix| <= |s| && s[..|prefix|] == prefix
  }

  predicate EndsWith(s: string, suffix: string) {
    |suffix| <= |s| && s[|s| - |suffix|..] == suffix
  }
}

=== FILE: latency.dfy ===
/** How samplePerformance turns the lateness of one background tick into apdex
    events: a delay several sampling intervals long counts as several delays,
    each one interval shorter than the one before. */
module Latency {

  /** The latencies samplePerformance folds into the general apdex for an
      excess delay `diffMs` (the tick came `diffMs` ms later than scheduled). */
  function DelayEvents(diffMs: int, intervalMs: int): (r: seq<int>)
    requires intervalMs > 0
    decreases diffMs
  {
    if diffMs < 0 then [] else [diffMs] + DelayEvents(diffMs - intervalMs, intervalMs)
  }

  /** A non-negative delay `d` gives d / s + 1 events with latencies d, d - s,
      d - 2s, ..., all non-negative; a negative delay gives none. */
  lemma {:induction false} DelayEventsShape(diffMs: int, intervalMs: int)
    requires intervalMs > 0
    ensures var r := DelayEvents(diffMs, intervalMs);
            |r| == (if diffMs >= 0 then diffMs / intervalMs + 1 else 0) &&
            (forall k :: 0 <= k < |r| ==> r[k] == diffMs - k * intervalMs) &&
            (forall k :: 0 <= k < |r| ==> 0 <= r[k])
    decreases diffMs
  {
    if diffMs >= 0 {
      var rest := DelayEvents(diffMs - intervalMs, intervalMs);
      DelayEventsShape(diffMs - intervalMs, intervalMs);
      if diffMs >= intervalMs {
        assert (diffMs - intervalMs) / intervalMs == diffMs / intervalMs - 1 by {
          DivShift(diffMs, intervalMs);
        }
      } else {
        assert diffMs / intervalMs == 0;
      }
      var r := DelayEvents(diffMs, intervalMs);
      forall k | 0 < k < |r| ensures r[k] == diffMs - k * intervalMs {
        assert r[k] == rest[k - 1];
        assert (k - 1) * intervalMs == k * intervalMs - intervalMs;
      }
    }
  }

  lemma DivShift(d: int, s: int)
    requires s > 0 && d >= s
    ensures (d - s) / s == d / s - 1
  {
    var q, m := d / s, d % s;
    assert d - s == (q - 1) * s + m;
    DivUnique(d - s, s, q - 1, m);
  }

  /** Division by a positive number is determined by quotient and remainder. */
  lemma DivUnique(x: int, s: int, q: int, m: int)
    requires s > 0 && 0 <= m < s && x == q * s + m
    ensures x / s == q
  {
    var q', m' := x / s, x % s;
    assert (q - q') * s == m' - m;
    SmallMultipleIsZero(q - q', s);
  }

  lemma SmallMultipleIsZero(k: int, s: int)
    requires s > 0 && -s < k * s < s
    ensures k == 0
  {
    MultipleSign(k, s);
  }

  lemma MultipleSign(k: int, s: int)
    requires s > 0
    ensures k >= 1 ==> k * s >= s
    ensures k <= -1 ==> k * s <= -s
  {
  }

  /** The last event is the shortest and lies below one sampling interval. */
  lemma LastDelayBelowInterval(diffMs: int, intervalMs: int)
    requires intervalMs > 0 && diffMs >= 0
    ensures var r := DelayEvents(diffMs, intervalMs);
            |r| > 0 && 0 <= r[|r| - 1] < intervalMs
  {
    DelayEventsShape(diffMs, intervalMs);
    var r := DelayEvents(diffMs, intervalMs);
    var q := diffMs / intervalMs;
    assert r[|r| - 1] == diffMs - q * intervalMs;
    assert diffMs - q * intervalMs == diffMs % intervalMs;
  }
}

=== FILE: retention.dfy ===
/** The retention rule of PerformanceWatcher.cleanOldFiles: in every folder it
    visits, only the last 100 entries (in sorted order) that are at most 10 days
    old survive; surviving folders are cleaned in turn down to level 3. At the
    top level only the "threadDumps-" folders of the log directory are considered. */
module Retention {
  import opened JavaLang
  import DumpPaths

  const MAX_KEPT: int := 100
  const MAX_AGE_DAYS: int := 10
  const MAX_LEVEL: nat := 3

  /** A file or folder: its name, its age in whole days and, for a folder, its
      entries in the order Arrays.sort puts them. */
  datatype Entry = Entry(name: string, ageDays: int, children: seq<Entry>)

  /** The deletion test for the entry at index `i` of `n` listed entries. */
  predicate Expired(i: int, n: int, ageDays: int)
  {
    i < n - MAX_KEPT || ageDays > MAX_AGE_DAYS
  }

  /** The entries of one folder that survive, each surviving folder cleaned if
      it lies above the depth limit. */
  function Survivors(children: seq<Entry>, level: nat): seq<Entry>
    decreases children, 1
  {
    SurvivorsFrom(children, level, 0)
  }

  /** A surviving entry as the loop leaves it: above the depth limit its own
      entries are cleaned one level further down, otherwise it is untouched. */
  function Cleaned(c: Entry, level: nat): (r: Entry)
    ensures r.name == c.name && r.ageDays == c.ageDays
    decreases c.children, 2
  {
    if level < MAX_LEVEL then c.(children := Survivors(c.children, level + 1)) else c
  }

  /** The survivors among children[i..]. */
  function SurvivorsFrom(children: seq<Entry>, level: nat, i: nat): seq<Entry>
    decreases children, 0, |children| - i
  {
    if i >= |children| then []
    else
      var child := children[i];
      (if Expired(i, |children|, child.ageDays) then [] else [Cleaned(child, level)])
      + SurvivorsFrom(children, level, i + 1)
  }

  /** The top-level listing filter: only the thread-dump folders of the log directory. */
  function ThreadDumpFolders(logDir: seq<Entry>): (r: seq<Entry>)
    ensures forall e :: e in r ==> e in logDir && StartsWith(e.name, DumpPaths.THREAD_DUMPS_PREFIX)
    ensures forall e :: e in logDir && StartsWith(e.name, DumpPaths.THREAD_DUMPS_PREFIX) ==> e in r
    ensures |r| <= |logDir|
  {
    if |logDir| == 0 then []
    else
      ThreadDumpFolders(logDir[..|logDir| - 1])
      + (if StartsWith(logDir[|logDir| - 1].name, DumpPaths.THREAD_DUMPS_PREFIX) then [logDir[|logDir| - 1]] else [])
  }

  /** The filter keeps the order of the listing: the filtered entries sit at
      strictly increasing positions `index` of the log directory. So sorting the
      filtered listing is filtering the sorted one, and "the last 100" at the top
      level are counted in that order. */
  lemma {:induction false} ThreadDumpFoldersKeepOrder(logDir: seq<Entry>) returns (index: seq<nat>)
    ensures |index| == |ThreadDumpFolders(logDir)|
    ensures forall a :: 0 <= a < |index| ==>
      index[a] < |logDir| && ThreadDumpFolders(logDir)[a] == logDir[index[a]]
    ensures forall a, b :: 0 <= a < b < |index| ==> index[a] < index[b]
  {
    var n := |logDir|;
    if n == 0 {
      index := [];
    } else {
      var init := logDir[..n - 1];
      var front := ThreadDumpFoldersKeepOrder(init);
      var r := ThreadDumpFolders(logDir);
      assert r[..|front|] == ThreadDumpFolders(init);
      if StartsWith(logDir[n - 1].name, DumpPaths.THREAD_DUMPS_PREFIX) {
        index := front + [n - 1];
        assert r[|front|] == logDir[n - 1];
      } else {
        index := front;
      }
    }
  }

  /** The entries of a folder that cleanOldFiles looks at on the given level. */
  function Listed(children: seq<Entry>, level: nat): seq<Entry>
  {
    if level == 0 then ThreadDumpFolders(children) else children
  }

  /** cleanOldFiles: list the folder, then delete each expired entry and descend
      into the others while above the depth limit. Returns what is left of the
      listed entries; entries the top-level filter skips are not touched. */
  method CleanOldFiles(children: seq<Entry>, level: nat) returns (kept: seq<Entry>)
    ensures kept == Survivors(Listed(children, level), level)
    decreases children
  {
    var listed := if level == 0 then ThreadDumpFolders(children) else children;
    kept := [];
    var i := 0;
    while i < |listed|
      invariant 0 <= i <= |listed|
      invariant kept + SurvivorsFrom(listed, level, i) == Survivors(listed, level)
    {
      var child := listed[i];
      assert child in children;
      if !Expired(i, |listed|, child.ageDays) {
        if level < MAX_LEVEL {
          var cleaned := CleanOldFiles(child.children, level + 1);
          child := child.(children := cleaned);
        }
        kept := kept + [child];
      }
      i := i + 1;
    }
  }

  /** Every survivor is a listed entry at some index j >= i that is among the
      last 100 and at most 10 days old, cleaned in turn when above the depth limit. */
  lemma {:induction false} SurvivorsFromKept(children: seq<Entry>, level: nat, i: nat)
    ensures forall e :: e in SurvivorsFrom(children, level, i) ==>
      exists j :: i <= j < |children| && !Expired(j, |children|, children[j].ageDays)
                  && e == Cleaned(children[j], level)
    decreases |children| - i
  {
    if i < |children| {
      SurvivorsFromKept(children, level, i + 1);
    }
  }

  /** Conversely every listed entry among the last 100 that is at most 10 days
      old survives, cleaned in turn when above the depth limit. */
  lemma {:induction false} SurvivorsFromComplete(children: seq<Entry>, level: nat, i: nat, j: nat)
    requires i <= j < |children| && !Expired(j, |children|, children[j].ageDays)
    ensures Cleaned(children[j], level) in SurvivorsFrom(children, level, i)
    decreases j - i
  {
    var c := children[i];
    var head := if Expired(i, |children|, c.ageDays) then [] else [Cleaned(c, level)];
    assert SurvivorsFrom(children, level, i) == head + SurvivorsFrom(children, level, i + 1);
    if i < j {
      SurvivorsFromComplete(children, level, i + 1, j);
    } else {
      assert head[0] in SurvivorsFrom(children, level, i);
    }
  }

  /** At most 100 entries of a folder survive, each at most 10 days old. */
  lemma {:induction false} SurvivorsBounded(children: seq<Entry>, level: nat, i: nat)
    requires i <= |children|
    ensures |SurvivorsFrom(children, level, i)| <= |children| - i
    ensures |SurvivorsFrom(children, level, i)| <= MAX_KEPT
    ensures forall e :: e in SurvivorsFrom(children, level, i) ==> e.ageDays <= MAX_AGE_DAYS
    decreases |children| - i
  {
    if i < |children| {
      SurvivorsBounded(children, level, i + 1);
      if i >= |children| - MAX_KEPT {
        assert |SurvivorsFrom(children, level, i)| <= |children| - i;
      }
    }
  }

  /** Below the depth limit nothing is cleaned: survivors keep their entries unchanged. */
  lemma {:induction false} DeepSurvivorsUntouched(children: seq<Entry>, level: nat, i: nat)
    requires level >= MAX_LEVEL
    ensures forall e :: e in SurvivorsFrom(children, level, i) ==> e in children
    decreases |children| - i
  {
    if i < |children| {
      DeepSurvivorsUntouched(children, level, i + 1);
    }
  }
}

=== FILE: stack_frames.dfy ===
/** Stack frames and the comparison of two stack traces from their outermost end
    (PerformanceWatcher.compareStackTraceElements and getStacktraceCommonPart).
    A Java stack trace lists the innermost call first, so the "trailing" frames
    are the outer call sites that two samples of a stalled thread share. */
module StackFrames {
  import opened JavaLang

  /** One StackTraceElement. The file name is absent for native or generated frames. */
  datatype Frame = Frame(className: string, methodName: string, fileName: Option<string>, lineNumber: int)

  /** The frame `i` places from the end of `s` (0 is the outermost call). */
  function FromEnd<T>(s: seq<T>, i: nat): T
    requires i < |s|
  {
    s[|s| - 1 - i]
  }

  /** compareStackTraceElements: the same class, method and file; the line
      number does not matter. */
  predicate SameFrame(a: Frame, b: Frame)
  {
    a.className == b.className && a.methodName == b.methodName && a.fileName == b.fileName
  }

  /** SameFrame is equality of frames with the line number erased. */
  lemma SameFrameIgnoresLine(a: Frame, b: Frame)
    ensures SameFrame(a, b) <==> a.(lineNumber := 0) == b.(lineNumber := 0)
    ensures forall n :: SameFrame(a.(lineNumber := n), b) == SameFrame(a, b)
  {
  }

  /** SameFrame is reflexive, symmetric and transitive. */
  lemma SameFrameIsEquivalence(a: Frame, b: Frame, c: Frame)
    ensures SameFrame(a, a)
    ensures SameFrame(a, b) ==> SameFrame(b, a)
    ensures SameFrame(a, b) && SameFrame(b, c) ==> SameFrame(a, c)
  {
  }

  /** `r` agrees frame by frame with the last |r| frames of `stack`. */
  predicate MatchesTail(r: seq<Frame>, stack: seq<Frame>)
  {
    |r| <= |stack| && forall i :: 0 <= i < |r| ==> SameFrame(FromEnd(r, i), FromEnd(stack, i))
  }

  ghost predicate IsSuffix<T>(r: seq<T>, s: seq<T>)
  {
    |r| <= |s| && r == s[|s| - |r|..]
  }

  lemma SuffixFromEnd<T>(r: seq<T>, s: seq<T>, i: nat)
    requires IsSuffix(r, s) && i < |r|
    ensures FromEnd(r, i) == FromEnd(s, i)
  {
    assert r[|r| - 1 - i] == s[|s| - |r| ..][|r| - 1 - i];
  }

  /** How many frames, counted from the outermost end, two stacks share. */
  function TrailingMatch(common: seq<Frame>, stack: seq<Frame>): (k: nat)
    ensures k <= |common| && k <= |stack|
    ensures forall i :: 0 <= i < k ==> SameFrame(FromEnd(common, i), FromEnd(stack, i))
    ensures k < |common| && k < |stack| ==> !SameFrame(FromEnd(common, k), FromEnd(stack, k))
  {
    if |common| == 0 || |stack| == 0 || !SameFrame(FromEnd(common, 0), FromEnd(stack, 0)) then 0
    else
      var k' := TrailingMatch(common[..|common| - 1], stack[..|stack| - 1]);
      assert forall i :: 0 < i <= k' ==> FromEnd(common, i) == FromEnd(common[..|common| - 1], i - 1);
      assert forall i :: 0 < i <= k' ==> FromEnd(stack, i) == FromEnd(stack[..|stack| - 1], i - 1);
      1 + k'
  }

  /** getStacktraceCommonPart as written: on the first mismatch the trailing
      part seen so far, otherwise `common` itself, even when `stack` is shorter. */
  function CommonPart(common: seq<Frame>, stack: seq<Frame>): (r: seq<Frame>)
    ensures IsSuffix(r, common)
    ensures r != common ==>
      |r| < |stack| && MatchesTail(r, stack) && !SameFrame(FromEnd(common, |r|), FromEnd(stack, |r|))
    ensures (forall i :: 0 <= i < |common| && i < |stack| ==> SameFrame(FromEnd(common, i), FromEnd(stack, i)))
      ==> r == common
    ensures (exists i :: 0 <= i < |common| && i < |stack| && !SameFrame(FromEnd(common, i), FromEnd(stack, i)))
      ==> r != common
  {
    var k := TrailingMatch(common, stack);
    if k < |common| && k < |stack| then
      var r := common[|common| - k..];
      forall i | 0 <= i < |r| ensures FromEnd(r, i) == FromEnd(common, i) {
        SuffixFromEnd(r, common, i);
      }
      r
    else common
  }

  /** The loop of getStacktraceCommonPart, frame by frame from the outermost end. */
  method StacktraceCommonPart(common: seq<Frame>, stack: seq<Frame>) returns (r: seq<Frame>)
    ensures r == CommonPart(common, stack)
  {
    var i := 0;
    while i < |common| && i < |stack|
      invariant 0 <= i <= |common| && i <= |stack|
      invariant forall j :: 0 <= j < i ==> SameFrame(FromEnd(common, j), FromEnd(stack, j))
    {
      var el1 := common[|common| - i - 1];
      var el2 := stack[|stack| - i - 1];
      assert el1 == FromEnd(common, i) && el2 == FromEnd(stack, i);
      if !SameFrame(el1, el2) {
        assert TrailingMatch(common, stack) == i;
        return common[|common| - i..];
      }
      i := i + 1;
    }
    return common;
  }

  /** The intended intersection: the longest tail of `common` that matches the
      tail of `stack`, never longer than either stack. */
  function CommonSuffix(common: seq<Frame>, stack: seq<Frame>): (r: seq<Frame>)
    ensures IsSuffix(r, common)
    ensures MatchesTail(r, stack)
    ensures |r| < |common| && |r| < |stack| ==> !SameFrame(FromEnd(common, |r|), FromEnd(stack, |r|))
  {
    var r := common[|common| - TrailingMatch(common, stack)..];
    forall i | 0 <= i < |r| ensures FromEnd(r, i) == FromEnd(common, i) {
      SuffixFromEnd(r, common, i);
    }
    r
  }

  /** No longer tail of `common` matches the tail of `stack`: CommonSuffix is the longest. */
  lemma CommonSuffixIsLongest(common: seq<Frame>, stack: seq<Frame>, t: seq<Frame>)
    requires IsSuffix(t, common) && MatchesTail(t, stack)
    ensures |t| <= |CommonSuffix(common, stack)|
  {
    forall i | 0 <= i < |t| ensures SameFrame(FromEnd(common, i), FromEnd(stack, i)) {
      SuffixFromEnd(t, common, i);
    }
  }

  /** The two definitions differ when the new stack is a shallower copy of the
      outer frames: CommonPart keeps an inner frame the new stack lacks. */
  lemma CommonPartKeepsFramesOfDeeperStack()
    ensures var x := Frame("p.Inner", "work", Some("Inner.java"), 7);
            var a := Frame("p.Outer", "call", Some("Outer.java"), 12);
            var b := Frame("java.lang.Thread", "run", Some("Thread.java"), 829);
            CommonPart([x, a, b], [a, b]) == [x, a, b] &&
            !MatchesTail(CommonPart([x, a, b], [a, b]), [a, b]) &&
            CommonSuffix([x, a, b], [a, b]) == [a, b]
  {
    var x := Frame("p.Inner", "work", Some("Inner.java"), 7);
    var a := Frame("p.Outer", "call", Some("Outer.java"), 12);
    var b := Frame("java.lang.Thread", "run", Some("Thread.java"), 829);
    assert TrailingMatch([x, a, b], [a, b]) == 2 by {
      assert [x, a, b][..2] == [x, a];
      assert [a, b][..1] == [a];
      assert TrailingMatch([x], []) == 0;
    }
  }
}

=== FILE: suite_stack.dfy ===
/** TestSuiteStack: the stack of test suites a test runner has opened and not
    yet closed, bottom first. Closing a suite checks that it is the one on top;
    the path presentation renders the open suites for the error message. */
module SuiteStack {
  import opened JavaLang

  /** A Java String object: its characters and its identity. The presentation
      compares names by identity (`!=`), closing a suite by contents (`equals`).
      Two names with the same identity are one object and so carry the same
      text; the lemmas here only ever compare identities, so nothing relies on
      a stack that breaks this. */
  datatype JString = JString(text: string, identity: nat)

  /** An SMTestProxy, reduced to the name it reports. */
  datatype TestProxy = TestProxy(name: JString)

  const EMPTY: string := "empty"

  /** What popSuite reports through LOG.assertTrue(false, ...): nothing, an
      empty stack, or a mismatching top suite together with the rest of the stack. */
  datatype PopError = NoError | AlreadyClosed(expected: string)
                    | Unexpected(expected: string, found: string, restOfStack: string)

  /** The names of the suites, bottom first, as getSuitePath collects them. */
  function Names(suites: seq<TestProxy>): (r: seq<JString>)
    ensures |r| == |suites|
    ensures forall i :: 0 <= i < |r| ==> r[i] == suites[i].name
  {
    seq(|suites|, i requires 0 <= i < |suites| => suites[i].name)
  }

  /** One suite of the presentation: the bracketed name, followed by an arrow
      unless the name is the very String object of the top suite. */
  function Piece(name: JString, lastIdentity: nat): string
  {
    "[" + name.text + "]" + (if name.identity != lastIdentity then "->" else "")
  }

  /** The pieces of all names, in order, as the loop appends them. */
  function Render(names: seq<JString>, lastIdentity: nat): string
  {
    if |names| == 0 then "" else Render(names[..|names| - 1], lastIdentity) + Piece(names[|names| - 1], lastIdentity)
  }

  /** getSuitePathPresentation over a stack. */
  function Presentation(suites: seq<TestProxy>): string
  {
    if |suites| == 0 then EMPTY
    else Render(Names(suites), suites[|suites| - 1].name.identity)
  }

  /** The intended reading, defined independently: bracketed names joined by arrows. */
  function Path(names: seq<string>): string
  {
    if |names| == 0 then ""
    else if |names| == 1 then "[" + names[0] + "]"
    else "[" + names[0] + "]->" + Path(names[1..])
  }

  function Texts(names: seq<JString>): (r: seq<string>)
    ensures |r| == |names|
    ensures forall i :: 0 <= i < |r| ==> r[i] == names[i].text
  {
    seq(|names|, i requires 0 <= i < |names| => names[i].text)
  }

  lemma {:induction false} PathSnoc(names: seq<string>, x: string)
    requires |names| > 0
    ensures Path(names + [x]) == Path(names) + "->[" + x + "]"
    decreases |names|
  {
    if |names| == 1 {
      assert (names + [x])[1..] == [x];
    } else {
      assert (names + [x])[1..] == names[1..] + [x];
      PathSnoc(names[1..], x);
    }
  }

  /** Every name but the last rendered by identity with an arrow after it: the
      pieces are the intended path followed by one more arrow. */
  lemma {:induction false} RenderDistinct(names: seq<JString>, lastIdentity: nat)
    requires |names| > 0
    requires forall i :: 0 <= i < |names| ==> names[i].identity != lastIdentity
    ensures Render(names, lastIdentity) == Path(Texts(names)) + "->"
    decreases |names|
  {
    var n := |names|;
    var x := names[n - 1];
    if n == 1 {
      assert Texts(names) == [x.text];
    } else {
      RenderDistinct(names[..n - 1], lastIdentity);
      assert Texts(names) == Texts(names[..n - 1]) + [x.text];
      PathSnoc(Texts(names[..n - 1]), x.text);
    }
  }

  /** When no suite below the top reports the very String object of the top
      suite's name, the presentation is "[a]->[b]->...->[top]". */
  lemma PresentationIsPath(suites: seq<TestProxy>)
    requires |suites| > 0
    requires forall i :: 0 <= i < |suites| - 1 ==> suites[i].name.identity != suites[|suites| - 1].name.identity
    ensures Presentation(suites) == Path(Texts(Names(suites)))
  {
    var names := Names(suites);
    var n := |names|;
    var last := names[n - 1];
    assert names[..n - 1] + [last] == names;
    if n == 1 {
      assert Render(names, last.identity) == Render(names[..0], last.identity) + Piece(last, last.identity);
      assert Texts(names) == [last.text];
    } else {
      RenderDistinct(names[..n - 1], last.identity);
      assert Texts(names) == Texts(names[..n - 1]) + [last.text];
      PathSnoc(Texts(names[..n - 1]), last.text);
    }
  }

  /** A non-empty presentation always closes with the top suite's bracket. */
  lemma PresentationEndsWithTop(suites: seq<TestProxy>)
    requires |suites| > 0
    ensures EndsWith(Presentation(suites), "[" + suites[|suites| - 1].name.text + "]")
  {
    var names := Names(suites);
    var n := |names|;
    var top := "[" + suites[n - 1].name.text + "]";
    var front := Render(names[..n - 1], names[n - 1].identity);
    assert Piece(names[n - 1], names[n - 1].identity) == top;
    assert Presentation(suites) == front + top;
    assert (front + top)[|front + top| - |top|..] == top;
  }

  /** The identity comparison: a stack holding the same suite twice renders
      without the arrow between the two. */
  lemma SameNameObjectDropsArrow()
    ensures var p := TestProxy(JString("a", 7));
            Presentation([p, p]) == "[a][a]"
  {
    var p := TestProxy(JString("a", 7));
    var names := Names([p, p]);
    assert names == [p.name, p.name];
    assert names[..1] == [p.name] && names[..1][..0] == [];
    assert Render(names[..1], 7) == Render([], 7) + "[a]";
    assert Render(names, 7) == Render(names[..1], 7) + "[a]";
  }

  class TestSuiteStack {
    /** myStack, bottom first: the top suite is the last element. */
    var suites: seq<TestProxy>

    constructor ()
      ensures suites == []
    {
      suites := [];
    }

    method PushSuite(suite: TestProxy)
      modifies this
      ensures suites == old(suites) + [suite]
    {
      suites := suites + [suite];
    }

    /** getCurrentSuite: the top suite, or null for an empty stack. */
    method GetCurrentSuite() returns (r: Option<TestProxy>)
      ensures r.None? <==> |suites| == 0
      ensures r.Some? ==> r.value == suites[|suites| - 1]
    {
      if |suites| != 0 {
        return Some(suites[|suites| - 1]);
      }
      return None;
    }

    /** popSuite: on an empty stack nothing is popped and an assertion is
        reported; otherwise the top suite is popped and returned only if its
        name equals `suiteName`, while a mismatch is reported together with the
        presentation of what remains on the stack. */
    method PopSuite(suiteName: string) returns (r: Option<TestProxy>, error: PopError)
      modifies this
      ensures |old(suites)| == 0 ==> suites == old(suites) && r.None? && error == AlreadyClosed(suiteName)
      ensures |old(suites)| > 0 ==> suites == old(suites)[..|old(suites)| - 1]
      ensures |old(suites)| > 0 ==>
        var top := old(suites)[|old(suites)| - 1];
        (r.Some? <==> top.name.text == suiteName) && (r.Some? ==> r.value == top)
        && (r.None? ==> error == Unexpected(suiteName, top.name.text, Presentation(suites)))
      ensures r.Some? <==> error == NoError
    {
      if |suites| == 0 {
        return None, AlreadyClosed(suiteName);
      }
      var currentSuite := suites[|suites| - 1];
      suites := suites[..|suites| - 1];
      if suiteName != currentSuite.name.text {
        var rest := GetSuitePathPresentation();
        return None, Unexpected(suiteName, currentSuite.name.text, rest);
      }
      return Some(currentSuite), NoError;
    }

    method IsEmpty() returns (b: bool)
      ensures b <==> |suites| == 0
    {
      var size := GetStackSize();
      b := size == 0;
    }

    method GetStackSize() returns (n: nat)
      ensures n == |suites|
    {
      n := |suites|;
    }

    /** getSuitePath: a new array of the suite names, bottom first. */
    method GetSuitePath() returns (names: array<JString>)
      ensures fresh(names)
      ensures names[..] == Names(suites)
    {
      var stack := suites;
      names := new JString[|stack|](i requires 0 <= i < |stack| => stack[i].name);
    }

    /** getSuitePathPresentation: "empty" for an empty stack, otherwise every
        name in brackets, with an arrow after each name that is not the top
        suite's String object. */
    method GetSuitePathPresentation() returns (s: string)
      ensures s == Presentation(suites)
      ensures |suites| > 0 ==> EndsWith(s, "[" + suites[|suites| - 1].name.text + "]")
      ensures |suites| > 0 && (forall i :: 0 <= i < |suites| - 1 ==> suites[i].name.identity != suites[|suites| - 1].name.identity)
              ==> s == Path(Texts(Names(suites)))
    {
      var names := GetSuitePath();
      if names.Length == 0 {
        return EMPTY;
      }
      var builder := "";
      var lastName := names[names.Length - 1];
      for i := 0 to names.Length
        invariant builder == Render(names[..i], lastName.identity)
      {
        builder := builder + "[" + names[i].text + "]";
        if names[i].identity != lastName.identity {
          builder := builder + "->";
        }
        assert names[..i + 1][..i] == names[..i];
      }
      assert names[..names.Length] == names[..];
      PresentationEndsWithTop(suites);
      if forall i :: 0 <= i < |suites| - 1 ==> suites[i].name.identity != suites[|suites| - 1].name.identity {
        PresentationIsPath(suites);
      }
      return builder;
    }

    method Clear()
      modifies this
      ensures suites == []
    {
      suites := [];
    }
  }

  /** The suite just opened is the current one, and closing it by its name
      returns it and restores the stack. */
  method PushThenPop(s: TestSuiteStack, suite: TestProxy)
    returns (top: Option<TestProxy>, size: nat, popped: Option<TestProxy>, error: PopError)
    modifies s
    ensures top == Some(suite) && size == |old(s.suites)| + 1
    ensures popped == Some(suite) && error == NoError
    ensures s.suites == old(s.suites)
  {
    s.PushSuite(suite);
    top := s.GetCurrentSuite();
    size := s.GetStackSize();
    popped, error := s.PopSuite(suite.name.text);
  }
}

=== FILE: watchdog.dfy ===
/** PerformanceWatcher itself: whether background sampling is scheduled, the
    general responsiveness samples, the depth of nested EDT events and the one
    current freeze checker. Clocks, the file system and the message bus are
    parameters of the operations that use them. */
module Watchdog {
  import opened JavaLang
  import opened FreezeCheck
  import opened WatcherConfig
  import opened Latency
  import DumpPaths

  class PerformanceWatcher {
    /** A headless application: the constructor returns before registering the
        registry listener, so sampling is never scheduled. */
    const headless: bool
    /** myThread != null: the periodic sampling task is scheduled. */
    var samplingEnabled: bool
    /** The interval the scheduled sampling task was created with. */
    var scheduledIntervalMs: int
    /** myLastSampling, in nanoseconds */
    var lastSampling: int
    /** The latencies folded into myGeneralApdex, oldest first. */
    var generalLatencies: seq<int>
    /** myActiveEvents */
    var activeEvents: int
    /** myCurrentEDTEventChecker */
    var current: FreezeChecker?

    ghost predicate Valid()
      reads this, current
    {
      (headless ==> !samplingEnabled)
      && (samplingEnabled ==> scheduledIntervalMs > 0) && (current != null ==> current.Valid())
    }

    /** The constructor: a headless application never samples; otherwise the
        registry listener runs once for the sampling interval. Crash reporting
        and the initial cleanOldFiles are modelled elsewhere or left out. */
    constructor (headless: bool, config: Config, now: int)
      ensures Valid() && this.headless == headless
      ensures samplingEnabled <==> !headless && EffectiveSamplingInterval(config) > 0
      ensures samplingEnabled ==> scheduledIntervalMs == config.samplingIntervalMs
      ensures lastSampling == now && generalLatencies == [] && activeEvents == 0 && current == null
    {
      this.headless := headless;
      var interval := EffectiveSamplingInterval(config);
      samplingEnabled := !headless && interval > 0;
      scheduledIntervalMs := if !headless && interval > 0 then interval else 0;
      lastSampling := now;
      generalLatencies := [];
      activeEvents := 0;
      current := null;
    }

    /** The registry listener: sampling stops when the effective interval is not
        positive, and is rescheduled only when the value that changed is the
        sampling interval itself. The listener exists only for a watcher that
        is not headless. */
    method RegistryValueChanged(config: Config, samplingIntervalChanged: bool)
      requires Valid() && !headless
      modifies this
      ensures Valid()
      ensures EffectiveSamplingInterval(config) <= 0 ==> !samplingEnabled
      ensures EffectiveSamplingInterval(config) > 0 && samplingIntervalChanged ==>
        samplingEnabled && scheduledIntervalMs == config.samplingIntervalMs
      ensures EffectiveSamplingInterval(config) > 0 && !samplingIntervalChanged ==>
        samplingEnabled == old(samplingEnabled) && scheduledIntervalMs == old(scheduledIntervalMs)
      ensures current == old(current) && activeEvents == old(activeEvents)
      ensures lastSampling == old(lastSampling) && generalLatencies == old(generalLatencies)
    {
      var interval := EffectiveSamplingInterval(config);
      if interval <= 0 {
        samplingEnabled := false;
      } else if samplingIntervalChanged {
        samplingEnabled := true;
        scheduledIntervalMs := interval;
      }
    }

    /** samplePerformance: the lateness of this tick, split into one apdex
        event per whole sampling interval by the loop. `now` is the nanosecond clock. */
    method SamplePerformance(now: int)
      requires Valid() && samplingEnabled
      modifies this
      ensures Valid()
      ensures samplingEnabled && scheduledIntervalMs == old(scheduledIntervalMs)
      ensures lastSampling == now
      ensures generalLatencies == old(generalLatencies)
        + DelayEvents(TruncDiv(now - old(lastSampling), 1_000_000) - scheduledIntervalMs, scheduledIntervalMs)
      ensures current == old(current) && activeEvents == old(activeEvents)
    {
      var samplingIntervalMs := scheduledIntervalMs;
      var diffMs := TruncDiv(now - lastSampling, 1_000_000) - samplingIntervalMs;
      ghost var initialDiff := diffMs;
      lastSampling := now;
      while diffMs >= 0
        invariant samplingEnabled && scheduledIntervalMs == samplingIntervalMs == old(scheduledIntervalMs)
        invariant lastSampling == now && current == old(current) && activeEvents == old(activeEvents)
        invariant generalLatencies + DelayEvents(diffMs, samplingIntervalMs)
                  == old(generalLatencies) + DelayEvents(initialDiff, samplingIntervalMs)
        decreases diffMs
      {
        generalLatencies := generalLatencies + [diffMs];
        diffMs := diffMs - samplingIntervalMs;
      }
    }

    /** edtEventStarted: one more active event; when sampling, the current
        checker is stopped (reporting its freeze, if any) and a fresh one armed.
        `start` is the nanosecond clock read on entry, `taskStop` the one
        FreezeCheckerTask.stop() reads later; the flags are those of
        FreezeChecker.StopAsWritten, the order in which the Java code stops a checker. */
    method EdtEventStarted(start: int, taskStop: int, publisherPresent: bool, folderExists: bool, renameSucceeds: bool)
      returns (report: Option<FreezeReport>)
      requires Valid()
      modifies this, current
      ensures Valid()
      ensures activeEvents == old(activeEvents) + 1
      ensures samplingEnabled == old(samplingEnabled) && scheduledIntervalMs == old(scheduledIntervalMs)
      ensures lastSampling == old(lastSampling) && generalLatencies == old(generalLatencies)
      ensures !samplingEnabled ==> current == old(current) && report.None?
      ensures samplingEnabled ==>
        current != null && fresh(current) && current.state == Checking && current.taskStart == start
      ensures samplingEnabled && old(current) != null ==>
        old(current).state == Finished && old(current).triggerCancelled && old(current).dumpTask.None?
        && old(current).freezeFolder == old(current.freezeFolder)
      ensures report.Some? <==>
        samplingEnabled && old(current) != null && old(current.state) == Freeze && publisherPresent
      ensures report.Some? ==>
        var ms := TruncDiv(taskStop - old(current).taskStart, 1_000_000);
        report.value == FreezeReport(ms, ReportDirectory(old(current.freezeFolder).value, "", ms, folderExists, renameSucceeds))
    {
      activeEvents := activeEvents + 1;
      report := None;
      if samplingEnabled {
        if current != null {
          report := current.StopAsWritten(taskStop, publisherPresent, folderExists, renameSucceeds);
        }
        current := new FreezeChecker(start);
      }
    }

    /** edtEventFinished: one active event fewer; when sampling, the current
        checker is stopped and a new one armed only if events are still open.
        With no current checker the Java code throws a NullPointerException
        (Objects.requireNonNull) after the decrement: `failed` is then true.
        `taskStop` is the clock stop() reads, `start` the one read for the new checker. */
    method EdtEventFinished(taskStop: int, start: int, publisherPresent: bool, folderExists: bool, renameSucceeds: bool)
      returns (report: Option<FreezeReport>, failed: bool)
      requires Valid()
      modifies this, current
      ensures Valid()
      ensures activeEvents == old(activeEvents) - 1
      ensures samplingEnabled == old(samplingEnabled) && scheduledIntervalMs == old(scheduledIntervalMs)
      ensures lastSampling == old(lastSampling) && generalLatencies == old(generalLatencies)
      ensures failed <==> samplingEnabled && old(current) == null
      ensures !samplingEnabled || failed ==> current == old(current) && report.None?
      ensures samplingEnabled && !failed ==>
        old(current).state == Finished && old(current).triggerCancelled && old(current).dumpTask.None?
        && old(current).freezeFolder == old(current.freezeFolder)
      ensures samplingEnabled && !failed ==>
        (activeEvents > 0 ==> current != null && fresh(current) && current.state == Checking && current.taskStart == start)
        && (activeEvents <= 0 ==> current == null)
      ensures report.Some? <==>
        samplingEnabled && old(current) != null && old(current.state) == Freeze && publisherPresent
      ensures report.Some? ==>
        var ms := TruncDiv(taskStop - old(current).taskStart, 1_000_000);
        report.value == FreezeReport(ms, ReportDirectory(old(current.freezeFolder).value, "", ms, folderExists, renameSucceeds))
    {
      activeEvents := activeEvents - 1;
      report := None;
      failed := false;
      if samplingEnabled {
        if current == null {
          failed := true;
          return;
        }
        report := current.StopAsWritten(taskStop, publisherPresent, folderExists, renameSucceeds);
        if activeEvents > 0 {
          current := new FreezeChecker(start);
        } else {
          current := null;
        }
      }
    }

    /** clearFreezeStacktraces: the current checker stops dumping, so its report
        will carry no freeze place. */
    method ClearFreezeStacktraces()
      requires Valid()
      modifies current
      ensures Valid()
      ensures current != null ==>
        current.dumpTask.None? && current.state == old(current.state)
        && current.freezeFolder == old(current.freezeFolder) && current.triggerCancelled == old(current.triggerCancelled)
    {
      if current != null {
        current.StopDumping();
      }
    }

    /** dumpThreads(pathPrefix, millis): no file when sampling is off or the
        folder cannot be created; otherwise the path of the dump, relative to the
        log directory (a failed write still returns the path). */
    method DumpThreads(pathPrefix: string, millis: bool, ideStartTime: string, build: string,
                       time: string, nowMillis: int, folderCreatable: bool) returns (file: Option<string>)
      ensures file.Some? <==> samplingEnabled && folderCreatable
      ensures file.Some? ==>
        file.value == DumpPaths.DumpFilePath(pathPrefix, ideStartTime, build, time, millis, nowMillis)
        && StartsWith(file.value, DumpPaths.THREAD_DUMPS_PREFIX) && EndsWith(file.value, ".txt")
    {
      if !samplingEnabled {
        return None;
      }
      var prefix := DumpPaths.NormalizePrefix(pathPrefix, ideStartTime, build);
      var suffix := if millis then "-" + LongToString(nowMillis) else "";
      var path := prefix + DumpPaths.DUMP_PREFIX + time + suffix + ".txt";
      if !folderCreatable {
        return None;
      }
      file := Some(path);
    }
  }

  /** Nested events (start, start, finish, finish) with sampling on: the inner
      start stops the outer checker before arming the next, the inner finish
      stops that one and arms a third, and the outer finish leaves no checker. */
  method NestedEvents(w: PerformanceWatcher, t0: int, t1: int, t2: int, t3: int)
    returns (outer: FreezeChecker, inner: FreezeChecker, last: FreezeChecker)
    requires w.Valid() && w.samplingEnabled && w.activeEvents == 0
    modifies w, w.current
    ensures w.Valid() && w.activeEvents == 0 && w.current == null
    ensures outer != inner && inner != last && outer != last
    ensures outer.state == Finished && inner.state == Finished && last.state == Finished
    ensures outer.taskStart == t0 && inner.taskStart == t1 && last.taskStart == t2
  {
    var _ := w.EdtEventStarted(t0, t0, true, true, true);
    outer := w.current;
    var _ := w.EdtEventStarted(t1, t1, true, true, true);
    inner := w.current;
    var _, failed := w.EdtEventFinished(t2, t2, true, true, true);
    assert !failed && w.activeEvents == 1 && w.current != null;
    last := w.current;
    var _, failed' := w.EdtEventFinished(t3, t3, true, true, true);
    assert !failed';
  }
}

=== FILE: watcher_config.dfy ===
/** The registry values the watcher reads and the arithmetic it does on them
    (PerformanceWatcher.getDumpInterval, getMaxDumpDuration and the interval the
    registry listener schedules sampling with). All values are Java `int`s. */
module WatcherConfig {
  import opened JavaLang

  /** performance.watcher.sampling.interval.ms, ...unresponsive.max.attempts.before.log,
      ...unresponsive.interval.ms and ...dump.duration.s, in that order. */
  datatype Config = Config(samplingIntervalMs: int, maxAttemptsCount: int,
                           unresponsiveIntervalMs: int, maxDumpDurationSec: int)

  /** The registry listener's interval: the sampling interval when both the
      unresponsive interval and the attempt count are positive, otherwise 0. */
  function EffectiveSamplingInterval(c: Config): (r: int)
    ensures r > 0 <==> c.samplingIntervalMs > 0 && c.maxAttemptsCount > 0 && c.unresponsiveIntervalMs > 0
    ensures r == 0 || r == c.samplingIntervalMs
  {
    if c.unresponsiveIntervalMs > 0 && c.maxAttemptsCount > 0 then c.samplingIntervalMs else 0
  }

  /** getDumpInterval: sampling interval times attempt count, as a Java `int` product. */
  function DumpInterval(c: Config): (r: int)
    ensures IsInt32(r)
    ensures (c.samplingIntervalMs * c.maxAttemptsCount - r) % INT32_MODULUS == 0
    ensures IsInt32(c.samplingIntervalMs * c.maxAttemptsCount) ==> r == c.samplingIntervalMs * c.maxAttemptsCount
  {
    ToInt32(c.samplingIntervalMs * c.maxAttemptsCount)
  }

  /** getMaxDumpDuration: the duration in seconds times 1000, as a Java `int` product. */
  function MaxDumpDurationMs(c: Config): (r: int)
    ensures IsInt32(r)
    ensures (c.maxDumpDurationSec * 1000 - r) % INT32_MODULUS == 0
    ensures IsInt32(c.maxDumpDurationSec * 1000) ==> r == c.maxDumpDurationSec * 1000
  {
    ToInt32(c.maxDumpDurationSec * 1000)
  }

  /** A registry duration of up to 2147483 seconds converts exactly; one more
      second wraps to a negative number of milliseconds. */
  lemma MaxDumpDurationRange(c: Config)
    ensures 0 <= c.maxDumpDurationSec <= 2147483 ==> MaxDumpDurationMs(c) == c.maxDumpDurationSec * 1000
    ensures c.maxDumpDurationSec == 2147484 ==> MaxDumpDurationMs(c) < 0
  {
    if c.maxDumpDurationSec == 2147484 {
      assert c.maxDumpDurationSec * 1000 - INT32_MODULUS == MaxDumpDurationMs(c) by {
        assert (c.maxDumpDurationSec * 1000 - INT32_MIN) % INT32_MODULUS == c.maxDumpDurationSec * 1000 - INT32_MIN - INT32_MODULUS;
      }
    }
  }
}
